=== FILE: README.md ===
# Evolution simulation: a Dafny model of the tick

This project models the decision core of a small evolution simulation in
which coloured bacteria live on a 10 x 10 square (which they can leave), eat food, flee larger
predators, hunt smaller prey, reproduce with random mutation and die. The
model covers:

- **`Bacterium.act`**, the per-tick priority chain of one organism, with its
  helpers. The order is die, then reproduce, flee, hunt, eat and wander.
- **`Simulation.processBacteriaActions`**, one tick over the whole
  population. Every organism acts in list order against the shared list,
  which is updated in place. Deaths, births and meals are applied after the
  pass.
- **Initial seeding**: the 10 x 10 grid pass of `renderBacteria`,
  `renderFood`, `getRandomPosition` and `getRandomColor`.
- **The configuration accessors.**
- **The leaderboard** that `AppComponent.updateBacteria` builds: the number
  of organisms per colour, sorted by count, largest first.

Organisms are immutable values. `act` returns the organism's next state
together with its action result. Each `Math.random()` draw is an explicit
parameter: a `Random` is a real in [0, 1). The floating-point geometry is an
oracle, the `Senses` record. It covers the sight test, the awareness test and
`Vector2.normalize()`. Floating-point numbers are modelled as exact reals.

Modules, in dependency order:

| file | module | contents |
|---|---|---|
| sequences.dfy | `Sequences` | `Option` (`undefined` or a value), first match, filter and count over sequences |
| scene.dfy | `Scene` | vectors, the [-5, 5] domain and its reflection rule, co-location tolerance, food, the geometry oracle |
| bacterium.dfy | `Bacteria` | the organism, mutation, perception, escape, eating, wandering, `act` |
| decisions.dfy | `Decisions` | one lemma per branch of `act`, and how an organism can leave the domain |
| seeding.dfy | `Seeding` | random positions and colours, food and organism seeding |
| simulation.dfy | `Simulation` | configuration, `reset`, the tick pass, its three loops, tick properties |
| leaderboard.dfy | `Leaderboard` | the per-colour count, its first-appearance order, and the stable sort by count |

## Model

| member | source | states |
|---|---|---|
| Scene.RandomUnit | src/app/three/bacterium.ts:182-184 | `randomUnit()` lies in [-1, 1) |
| Scene.ReflectPointsInward | src/app/three/bacterium.ts:224-229 | after a step from inside the domain leaves it on an axis, the reflected component on that axis points back inside |
| Scene.SameLocationShape | src/app/three/bacterium.ts:333-341 | co-location is reflexive and symmetric; a difference of at least 0.005 on either axis is never co-located |
| Bacteria.MutationIndex | src/app/three/bacterium.ts:153-155 | the mutation index is the floor of draw x 10, so it lies in 0..9; the enum has ten keys |
| Bacteria.Mutate | src/app/three/bacterium.ts:148-175 | a draw below 0.2 changes nothing, and neither do indices 5..9. Otherwise index 0 adds the drawn delta in [-0.25, 0.25) to the size, 1 adds one in [-0.025, 0.025) to the speed, and 2 and 3 add one in [-0.25, 0.25) to the sight and awareness ranges; each leaves every other trait and predator status as they were. Index 4 leaves the traits as they were and makes the organism a predator exactly when it already was one or the amount draw is at least 0.6. Predator status is only ever gained, and nothing but traits and predator status changes |
| Bacteria.Offspring | src/app/three/bacterium.ts:83-95 | the child has the parent's colour and position and 1000 energy. With a gate draw below 0.5 its traits are exactly the parent's and it is no predator. Otherwise the mutation acts on the parent's traits as in `mutate`: index k of 0..3 changes trait k by the drawn delta and nothing else; index 4 keeps the traits and makes the child a predator exactly when the amount draw is at least 0.6. A skipped mutation or an index of 5..9 leaves the parent's traits |
| Bacteria.Others | src/app/three/bacterium.ts:104 | the candidate list holds exactly the listed organisms whose id differs from the actor's |
| Bacteria.LookForPredators | src/app/three/bacterium.ts:186-203 | returns undefined exactly when no listed organism is a strictly larger, perceived predator. Otherwise returns the first such organism in list order |
| Bacteria.LookForPrey | src/app/three/bacterium.ts:277-293 | returns undefined exactly when no listed organism is strictly smaller and perceived. Otherwise returns the first such organism |
| Bacteria.LookForFood | src/app/three/bacterium.ts:263-275 | returns undefined exactly when no food item is perceived. Otherwise returns the first perceived item |
| Bacteria.AttemptEscape | src/app/three/bacterium.ts:205-237 | caught exactly when co-located with the predator. Otherwise the organism takes one unclamped step along the away-vector. Only the heading is reflected; the facing is left unchanged |
| Bacteria.AttemptToEat | src/app/three/bacterium.ts:295-307 | the organism jumps onto the target and turns towards it. Success holds exactly when the draw is below the chance, so a chance of 1 always succeeds |
| Bacteria.MoveInRandomDirection | src/app/three/bacterium.ts:239-261 | the organism moves one unclamped step along the perturbed direction; only position, facing and heading change |
| Bacteria.Act | src/app/three/bacterium.ts:77-146 | `act` keeps id, traits, colour and predator status. A death leaves the organism untouched. It reproduces exactly when energy exceeds 5000, paying 4000. Eating takes a listed item, gains 1000 and moves onto the item. Every other outcome changes energy by -10, +2000 or -1 |
| Decisions.CandidatesExcludeSelf | src/app/three/bacterium.ts:104-116 | a threat or prey found is never the actor and is one of the listed organisms |
| Decisions.FirstThreatInList | src/app/three/bacterium.ts:104-105 | the threat `act` reacts to is the first organism of the whole list, in list order, that is not the actor and is a strictly larger, perceived predator; undefined when there is none |
| Decisions.FirstPreyInList | src/app/three/bacterium.ts:104-117 | the prey `act` hunts is the first organism of the whole list, in list order, that is not the actor and is strictly smaller and perceived; undefined when there is none |
| Decisions.ActDiesWhenExhausted | src/app/three/bacterium.ts:78-80 | with energy at most 0 the result is Die and nothing changes |
| Decisions.ActReproduces | src/app/three/bacterium.ts:82-102 | above 5000 energy the organism reproduces, and the parent only loses 4000. The child has the parent's colour and position and 1000 energy. Below the gate it has the parent's traits; otherwise a mutation that is not skipped has the per-index effect of `mutate` |
| Decisions.ActFlees | src/app/three/bacterium.ts:105-113 | with a threat in view the organism dies exactly when co-located with it. Otherwise it steps away, pays 10, and keeps its facing |
| Decisions.ActHunts | src/app/three/bacterium.ts:115-126 | a predator with prey in view (and no threat) jumps onto the prey. It gains 2000 if the draw is below 0.9 and loses 1 otherwise; the result is None |
| Decisions.NonPredatorsIgnorePrey | src/app/three/bacterium.ts:115-116 | a non-predator with no threat in view acts as if it were alone |
| Decisions.ActForages | src/app/three/bacterium.ts:128-140 | with no threat or prey, the first perceived food is always eaten: the organism moves onto it and gains 1000 |
| Decisions.ActWanders | src/app/three/bacterium.ts:142-145 | with nothing else to do the organism pays 1 and moves to the unclamped step. Each facing component is negated exactly when that coordinate left the domain |
| Decisions.EqualSizesWander | src/app/three/bacterium.ts:189-191 | size comparisons are strict: among equals with no food in view every organism wanders |
| Decisions.DeathHasACause | src/app/three/bacterium.ts:105-112 | a death with positive energy always has a distinct, larger, perceived, co-located predator |
| Decisions.EscapeCanLeaveTheDomain | src/app/three/bacterium.ts:205-237 | an escape that starts inside the domain can end outside it: from (4.99, 0), speed 0.05, fleeing a predator at (4.98, 0), the organism lands at x = 5.04 and keeps its facing |
| Decisions.FarOutsideTurnsOutward | src/app/three/bacterium.ts:239-261 | farther outside than one step, a wandering step ends outside again and the x-facing is negated, so a step back towards the domain leaves the organism facing away from it |
| Seeding.RandomCoordinate | src/app/three/simulation.ts:217-222 | a coordinate is a whole number of tenths in [-4.5, 4.4] |
| Seeding.RandomCoordinateOnto | src/app/three/simulation.ts:219 | every tenth in [-4.5, 4.4] is produced by some draw |
| Seeding.GetRandomPosition | src/app/three/simulation.ts:217-222 | both coordinates are drawn independently within [-4.5, 4.4] |
| Seeding.HexRoundTrip | src/app/three/simulation.ts:209 | digit value and digit character are inverse to each other |
| Seeding.HexDigit | src/app/three/simulation.ts:212 | a digit is a hexadecimal character whose value is the floor of draw x 16 |
| Seeding.GetRandomColor | src/app/three/simulation.ts:208-215 | a colour is `#` followed by six hexadecimal digits, digit i coming from draw i |
| Seeding.GetRandomColorOnto | src/app/three/simulation.ts:208-215 | every `#`-prefixed six-digit colour is produced by some draws |
| Seeding.RenderFood | src/app/three/simulation.ts:150-164 | no food before the scene exists. Otherwise one item per count, or none for a non-positive count. Every item lies within [-4.5, 4.4] on both axes, inside the domain |
| Seeding.PlacedCells | src/app/three/simulation.ts:175-186 | the placed cells are strictly increasing in loop order, and each one passed the 50% render test |
| Seeding.SeedCells | src/app/three/simulation.ts:183-203 | one organism per placed cell, each with the starting traits, 1000 energy, no predator status and a hexadecimal colour |
| Seeding.SeedCellsAt | src/app/three/simulation.ts:183-203 | organism m is the one seeded in the m-th placed cell |
| Seeding.RenderBacteria | src/app/three/simulation.ts:166-206 | at most 100 organisms, none before the scene exists, each a fresh starting organism |
| Seeding.SeedInCell | src/app/three/simulation.ts:188-192 | an organism seeded in a cell lies within [cell - 0.45, cell + 0.44] on each axis |
| Seeding.DistinctCellsApart | src/app/three/simulation.ts:174-179 | points in two different cells differ |
| Seeding.SeededLayout | src/app/three/simulation.ts:166-206 | every seeded organism lies in its own grid cell, so no two seeded organisms share a position |
| Seeding.SeedingCanStartOutside | src/app/three/simulation.ts:175-193 | seeding can place an organism outside the [-5, 5] domain: the corner cell with offset draws of 0 yields (-5.45, -5.45) |
| Simulation.ParametersRoundTrip | src/app/three/simulation.ts:46-59 | reading back returns what was written, and writing back what was read changes nothing. The last write wins, and live organisms and food are untouched |
| Simulation.Reset | src/app/three/simulation.ts:134-148 | the configuration is unchanged. Before the scene exists there are no organisms and no food. Otherwise organism m of at most 100 sits in the m-th cell the seeding pass placed, every organism has the starting traits and 1000 energy, and the food count matches the configured count |
| Simulation.FirstReset | src/app/three/simulation.ts:35-44 | a new simulation has no organisms or food and reports the default configuration. Its first reset on a ready scene lays out 300 food items, and seeds organisms of size 0.2, speed 0.01, sight 0.1, awareness pi/4 and 1000 energy |
| Simulation.Pass | src/app/three/simulation.ts:232-244 | the pass yields one result per iteration and keeps the list length. Organisms not yet reached are unchanged |
| Simulation.PassStep | src/app/three/simulation.ts:232-233 | each iteration writes organism i back in place and appends its result; organism i acts from its pre-tick state |
| Simulation.ResultsSettle | src/app/three/simulation.ts:232-244 | an organism's result is fixed once it has acted |
| Simulation.EachActsOnce | src/app/three/simulation.ts:232-233 | organism k acts exactly once, from its pre-tick state, against the list as the earlier iterations left it and against the unchanged food list |
| Simulation.PassKeepsRoster | src/app/three/simulation.ts:232-233 | turns that keep identities keep the roster: same organisms, same order, same ids, traits, colours, predator status |
| Simulation.ActPassKeepsRoster | src/app/three/simulation.ts:232-244 | during the tick the shared list still holds every organism in order, including those that already chose to die |
| Simulation.DiedIdsMembers | src/app/three/simulation.ts:234-236 | an id is collected for removal exactly when the organism at some index had result Die |
| Simulation.Children | src/app/three/simulation.ts:237-239 | one child is collected per Reproduce result |
| Simulation.EatenIdsMembers | src/app/three/simulation.ts:240-242 | a food id is collected exactly when some result ate that item |
| Simulation.CollectStep | src/app/three/simulation.ts:234-243 | each result extends at most one of the three collected lists, by its own payload |
| Simulation.ActAll | src/app/three/simulation.ts:228-244 | the first loop computes exactly the pass and the three collected lists |
| Simulation.KeepLiving | src/app/three/simulation.ts:246-251 | the second loop keeps, in order, the organisms whose id is not listed |
| Simulation.KeepUneaten | src/app/three/simulation.ts:253-258 | the third loop keeps, in order, the food whose id is not listed |
| Simulation.ProcessBacteriaActions | src/app/three/simulation.ts:224-264 | the three loops compute the declarative tick: survivors in order, then the children, and the uneaten food |
| Simulation.TickFood | src/app/three/simulation.ts:253-262 | the tick never adds food: the next food list holds exactly the items not eaten |
| Simulation.TickRemovesTheDead | src/app/three/simulation.ts:246-251 | no survivor carries an id that died this tick |
| Simulation.TickPopulation | src/app/three/simulation.ts:246-261 | with distinct ids, the population changes by births minus deaths |
| Simulation.SurvivorCount | src/app/three/simulation.ts:246-251 | removing the died ids keeps exactly the organisms whose own result is not Die |
| Simulation.EmptyTick | src/app/three/simulation.ts:224-264 | an empty world stays empty |
| Leaderboard.BumpKnown | src/app/app.component.ts:35-36 | a known colour's count goes up by one in place and no other entry changes |
| Leaderboard.BumpNew | src/app/app.component.ts:37-38 | an unknown colour is appended with count 1 |
| Leaderboard.TallyFacts | src/app/app.component.ts:32-45 | the dictionary has one entry per colour present, holding that colour's number of occurrences (at least 1). The counts add up to the population |
| Leaderboard.TallyFirstAppearance | src/app/app.component.ts:32-40 | the dictionary lists each colour present, in the order in which the colours first occur among the counted bacteria: a colour already seen keeps its place, a new one is added at the end |
| Leaderboard.FilterFirstAppearance | src/app/app.component.ts:43-47 | keeping only some entries of a list in first-appearance order leaves it in first-appearance order |
| Leaderboard.InsertPermutes | src/app/app.component.ts:47 | insertion adds exactly the inserted entry and preserves the total |
| Leaderboard.InsertSorted | src/app/app.component.ts:47 | insertion into a list sorted by descending count keeps it sorted |
| Leaderboard.InsertKeys | src/app/app.component.ts:47 | insertion adds exactly the inserted colour to the keys |
| Leaderboard.InsertDistinct | src/app/app.component.ts:47 | inserting a fresh colour keeps the colours distinct |
| Leaderboard.InsertStable | src/app/app.component.ts:47 | insertion never moves an entry past an entry of equal count |
| Leaderboard.SortPermutes | src/app/app.component.ts:47 | the sort returns a permutation of the dictionary, sorted by descending count, with the same total |
| Leaderboard.SortDistinct | src/app/app.component.ts:47 | the sort keeps the same colours, each once |
| Leaderboard.SortStable | src/app/app.component.ts:47 | entries of equal count keep their dictionary order (the sort is stable) |
| Leaderboard.BoardFacts | src/app/app.component.ts:29-48 | the board lists each colour present exactly once, with its number of occurrences (at least 1). The counts sum to the population, largest first |
| Leaderboard.UpdateBacteria | src/app/app.component.ts:29-48 | the leaderboard: distinct colours, exactly the colours present, each with its number of occurrences, counts summing to the population, sorted by descending count, empty for an empty population |
| Leaderboard.LeaderboardTies | src/app/app.component.ts:43-47 | the board restricted to any one count equals the dictionary restricted to that count, so colours with equal counts keep the dictionary's insertion order. That order is the order in which the colours first occur among the bacteria |

## Left out

- Rendering is not modelled: meshes, the scene, the camera, the renderer, `delete()`, the resize handler and the `rotateToFace` angle. `heading` records the direction last passed to `rotateToFace` instead.
- `startSimulation`'s animation loop is not modelled: the frame-rate gate and the timer-driven food top-up. They depend on the clock.
- The geometry is an oracle. The `Senses` record supplies the sight test (square root), the awareness test (arc cosine of origin-relative vectors) and `normalize()`. Nothing is proved about their values.
- Every `Math.random()` value is a parameter, and so is every `crypto.randomUUID()` value. Ids are not assumed distinct except where a lemma says so.
- The subscription plumbing is not modelled: `bacteria$`, `food$` and the subjects. `updateBacteria` is modelled as a function of the organism list.
- The number-slider and three-renderer components are not part of this model. They only forward configuration and observables.
- `Math.PI / 4` is the decimal `0.7853981633974483`. This is the shortest decimal that rounds to the double `Math.PI / 4` evaluates to; the double itself differs from it by about 2e-17.
- Seeding.RenderFood: `startingFoodCount` is an integer. The source's `i < startingFoodCount` loop also accepts a fractional count, which it rounds up. That case is not modelled.
- Simulation.TickPopulation: assumes distinct ids. With a repeated id, one Die removes every organism carrying that id.
- Leaderboard.UpdateBacteria, Leaderboard.LeaderboardTies, Leaderboard.TallyFirstAppearance: assumes colour keys enumerate in insertion order. That holds for the `#RRGGBB` colours the seeding produces. JavaScript would enumerate integer-like keys first, and the model does not cover that. So the first-appearance order of tied colours is not promised for integer-like colour names. The model also treats the dictionary as empty at the start. The source's `colour in leaderboardDict` check also finds keys inherited from `Object.prototype`. A colour named `toString` would get the count `NaN`, and one named `__proto__` would never be listed. Neither case is modelled.
- Bacteria.AttemptEscape, Bacteria.MoveInRandomDirection: positions are not clamped to [-5, 5]. The code moves to the unreflected step and only reflects the direction. So an organism can leave the domain. It can even start outside: seeding places organisms in [cell - 0.45, cell + 0.44], so the edge cells reach -5.45 (Seeding.SeedingCanStartOutside), although the comment in the seeding code speaks of squares on the screen. An organism can also leave later: an escape that starts near the edge ends beyond it (Decisions.EscapeCanLeaveTheDomain). Once an organism is farther outside than one step, every wandering step ends outside again, and the reflection then turns its facing away from the domain (Decisions.FarOutsideTurnsOutward). It can stay outside for good.
- Simulation.Pass: organisms that act later see earlier organisms in their updated state, because `act` mutates the shared objects.
- Bacteria.Act: a successful hunt does not remove the prey. The code only moves the hunter and adds energy.
- Several calls do not match the declarations they target. The model uses the evident intent:
  - `renderBacteria` calls the seven-parameter constructor with four arguments: the traits object, the colour and the two coordinates.
  - `BacteriumTraits` is imported but not declared.
  - `getColour()` is called but not declared.
  - `AppComponent` subscribes to `threeRenderer.bacteria$` (src/app/app.component.ts:25). `ThreeRenderer` declares no such member.
  - The model copies the starting traits record, and the organism's colour is the generated one.

=== FILE: bacterium.dfy ===
/** One organism and its per-tick decision procedure `act`: a strict priority
    chain (die, reproduce, flee, hunt, eat, wander) that yields exactly one
    action result and the organism's updated state. The organism is an
    immutable value; `act` returns the state the source writes back into the
    object. Random draws and the perception geometry arrive as parameters. */
module Bacteria {
  import opened Sequences
  import opened Scene

  const InitialEnergy: int := 1000
  const ReproductionThreshold: int := 5000
  const ReproductionCost: int := 4000
  const EscapeCost: int := 10
  const PreyGain: int := 2000
  const FoodGain: int := 1000
  /** The cost of a failed hunt, a failed meal and a wandering step. */
  const ActionCost: int := 1

  /** `attemptToEat` success chances for prey and for food. */
  const HuntChance: real := 0.9
  const FoodChance: real := 1.0
  /** A child is mutated when the draw is at least this. */
  const MutationGate: real := 0.5
  /** `mutate` does nothing when its first draw is below this. */
  const NoMutationChance: real := 0.2
  /** `Object.keys(MutationType).length`: a numeric enum with five members has
      ten keys (five names and five reverse-mapped numbers). */
  const MutationKeyCount: int := 10
  /** The predation mutation takes effect when its draw is at least this. */
  const PredationChance: real := 0.6

  /** The heritable traits, copied into a child. */
  datatype Traits = Traits(size: real, speed: real, sightRange: real, awarenessRange: real)

  /** A display colour, also the leaderboard key. */
  type Colour = string

  /** A bacterium. `position` is the mesh position, `facing` the facing
      direction, and `heading` the direction last passed to `rotateToFace`
      (which sets the mesh rotation; the angle itself is not modelled). */
  datatype Bacterium = Bacterium(
    id: Id,
    traits: Traits,
    colour: Colour,
    energy: int,
    isPredator: bool,
    position: Vec,
    facing: Vec,
    heading: Vec)

  /** The outcome of one call of `act`: the action and its payload. */
  datatype ActionResult =
    | None
    | Reproduce(newBacterium: Bacterium)
    | Die
    | EatFood(eatenFood: Food)

  /** The organism's state after `act`, together with the action result. */
  datatype Turn = Turn(actor: Bacterium, result: ActionResult)

  /** The three `Math.random()` draws `mutate` may use: the no-op test, the
      mutation index, and the amount (or, for predation, the take-effect test). */
  datatype MutationDraws = MutationDraws(skip: Random, kind: Random, amount: Random)

  /** Every random value one call of `act` may consume. */
  datatype Draws = Draws(
    childId: Id,
    childFacingX: Random,
    childFacingY: Random,
    mutationGate: Random,
    mutation: MutationDraws,
    huntRoll: Random,
    foodRoll: Random,
    jitterX: Random,
    jitterY: Random)

  /** The constructor: a fresh organism with 1000 energy that is not a predator,
      facing (and rotated towards) the given direction. */
  function Newborn(id: Id, traits: Traits, colour: Colour, position: Vec, facing: Vec): Bacterium
  {
    Bacterium(id, traits, colour, InitialEnergy, false, position, facing, facing)
  }

  /** The constructor's random facing: two `randomUnit()` draws, normalised. */
  function RandomFacing(senses: Senses, rx: Random, ry: Random): Vec
  {
    senses.normalize(Vec(RandomUnit(rx), RandomUnit(ry)))
  }

  // ---------------------------------------------------------------- mutation

  /** `Math.floor(Math.random() * Object.keys(MutationType).length)`. */
  function MutationIndex(r: Random): (k: int)
    ensures 0 <= k < MutationKeyCount
    ensures k as real <= r * MutationKeyCount as real < (k + 1) as real
  {
    (r * MutationKeyCount as real).Floor
  }

  /** The size, sight and awareness perturbation `Math.random() / 2 - 0.25`. */
  function TraitDelta(r: Random): real
  {
    r / 2.0 - 0.25
  }

  /** The speed perturbation `Math.random() / 20 - 0.025`. */
  function SpeedDelta(r: Random): real
  {
    r / 20.0 - 0.025
  }

  /** Everything but the traits and the predator flag is the same. */
  predicate SameApartFromTraits(b: Bacterium, m: Bacterium)
  {
    && m.id == b.id && m.colour == b.colour && m.energy == b.energy
    && m.position == b.position && m.facing == b.facing && m.heading == b.heading
  }

  function Changed<T(==)>(a: T, b: T): nat
  {
    if a == b then 0 else 1
  }

  /** At most one of size, speed, sight range, awareness range and the predator
      flag differs. */
  predicate AtMostOneTraitChanged(b: Bacterium, m: Bacterium)
  {
    Changed(b.traits.size, m.traits.size) + Changed(b.traits.speed, m.traits.speed)
    + Changed(b.traits.sightRange, m.traits.sightRange)
    + Changed(b.traits.awarenessRange, m.traits.awarenessRange)
    + Changed(b.isPredator, m.isPredator) <= 1
  }

  /** What a mutation that is not skipped does: index 0 adds the drawn delta to
      the size, 1 to the speed, 2 to the sight range and 3 to the awareness
      range, leaving the other traits and predator status alone; index 4
      leaves the traits alone and grants predator status on an amount draw of
      at least 0.6. */
  predicate MutationEffect(t: Traits, wasPredator: bool, d: MutationDraws, t': Traits, isPredator: bool)
  {
    var k := MutationIndex(d.kind);
    && (k == 0 ==> t' == t.(size := t.size + TraitDelta(d.amount)) && isPredator == wasPredator)
    && (k == 1 ==> t' == t.(speed := t.speed + SpeedDelta(d.amount)) && isPredator == wasPredator)
    && (k == 2 ==> t' == t.(sightRange := t.sightRange + TraitDelta(d.amount)) && isPredator == wasPredator)
    && (k == 3 ==> t' == t.(awarenessRange := t.awarenessRange + TraitDelta(d.amount)) && isPredator == wasPredator)
    && (k == 4 ==> t' == t && (isPredator <==> wasPredator || d.amount >= PredationChance))
  }

  /** `mutate`: with the first draw below 0.2 nothing happens; otherwise one
      of ten indices is drawn, indices 0..4 select size, speed, sight,
      awareness and predation, and indices 5..9 (the enum's name keys) match
      no case. */
  function Mutate(b: Bacterium, d: MutationDraws): (m: Bacterium)
    ensures SameApartFromTraits(b, m)
    ensures AtMostOneTraitChanged(b, m)
    ensures -0.25 <= m.traits.size - b.traits.size < 0.25
    ensures -0.025 <= m.traits.speed - b.traits.speed < 0.025
    ensures -0.25 <= m.traits.sightRange - b.traits.sightRange < 0.25
    ensures -0.25 <= m.traits.awarenessRange - b.traits.awarenessRange < 0.25
    ensures b.isPredator ==> m.isPredator
    ensures d.skip < NoMutationChance ==> m == b
    ensures MutationIndex(d.kind) >= 5 ==> m == b
    ensures m.isPredator != b.isPredator ==> MutationIndex(d.kind) == 4 && d.amount >= PredationChance
    ensures d.skip >= NoMutationChance ==> MutationEffect(b.traits, b.isPredator, d, m.traits, m.isPredator)
  {
    if d.skip < NoMutationChance then b
    else
      var k := MutationIndex(d.kind);
      var t := b.traits;
      if k == 0 then b.(traits := t.(size := t.size + TraitDelta(d.amount)))
      else if k == 1 then b.(traits := t.(speed := t.speed + SpeedDelta(d.amount)))
      else if k == 2 then b.(traits := t.(sightRange := t.sightRange + TraitDelta(d.amount)))
      else if k == 3 then b.(traits := t.(awarenessRange := t.awarenessRange + TraitDelta(d.amount)))
      else if k == 4 && d.amount >= PredationChance then b.(isPredator := true)
      else b
  }

  /** The child of a reproducing parent: a newborn with the parent's traits,
      colour and position, mutated when the gate draw is at least 0.5. */
  function Offspring(parent: Bacterium, senses: Senses, d: Draws): (child: Bacterium)
    ensures child.id == d.childId
    ensures child.colour == parent.colour && child.position == parent.position
    ensures child.energy == InitialEnergy
    ensures child.facing == child.heading == RandomFacing(senses, d.childFacingX, d.childFacingY)
    ensures d.mutationGate < MutationGate ==> child.traits == parent.traits && !child.isPredator
    ensures child.isPredator ==> d.mutationGate >= MutationGate && MutationIndex(d.mutation.kind) == 4
    ensures -0.25 <= child.traits.size - parent.traits.size < 0.25
    ensures -0.025 <= child.traits.speed - parent.traits.speed < 0.025
    ensures -0.25 <= child.traits.sightRange - parent.traits.sightRange < 0.25
    ensures -0.25 <= child.traits.awarenessRange - parent.traits.awarenessRange < 0.25
    ensures AtMostOneTraitChanged(parent.(isPredator := false), child)
    ensures d.mutationGate >= MutationGate && d.mutation.skip >= NoMutationChance ==>
      MutationEffect(parent.traits, false, d.mutation, child.traits, child.isPredator)
    ensures d.mutationGate >= MutationGate && (d.mutation.skip < NoMutationChance || MutationIndex(d.mutation.kind) >= 5) ==>
      child.traits == parent.traits && !child.isPredator
  {
    var born := Newborn(d.childId, parent.traits, parent.colour, parent.position,
                        RandomFacing(senses, d.childFacingX, d.childFacingY));
    if d.mutationGate >= MutationGate then Mutate(born, d.mutation) else born
  }

  // -------------------------------------------------------------- perception

  /** Both perception tests pass for the target position, each with the
      organism's own range. */
  predicate Perceives(self: Bacterium, senses: Senses, target: Vec)
  {
    && senses.withinSight(self.position, target, self.traits.sightRange)
    && senses.withinAwareness(self.position, target, self.traits.awarenessRange)
  }

  /** A predator strictly larger than `self` that `self` perceives. */
  predicate IsThreat(self: Bacterium, senses: Senses, b: Bacterium)
  {
    b.isPredator && b.traits.size > self.traits.size && Perceives(self, senses, b.position)
  }

  /** An organism strictly smaller than `self` that `self` perceives. */
  predicate IsPrey(self: Bacterium, senses: Senses, b: Bacterium)
  {
    b.traits.size < self.traits.size && Perceives(self, senses, b.position)
  }

  /** A food item `self` perceives. */
  predicate IsVisibleFood(self: Bacterium, senses: Senses, f: Food)
  {
    Perceives(self, senses, f.position)
  }

  /** The candidate list `act` searches: every organism whose id differs from
      the actor's. */
  function Others(self: Bacterium, bacteria: seq<Bacterium>): (r: seq<Bacterium>)
    ensures forall i :: 0 <= i < |r| ==> r[i].id != self.id && r[i] in bacteria
    ensures forall i :: 0 <= i < |bacteria| && bacteria[i].id != self.id ==> bacteria[i] in r
  {
    FilterMembers(bacteria, (b: Bacterium) => b.id != self.id);
    Filter(bacteria, (b: Bacterium) => b.id != self.id)
  }

  /** `lookForPredators`: the first threat in list order. */
  function LookForPredators(self: Bacterium, senses: Senses, bacteria: seq<Bacterium>): (r: Option<Bacterium>)
    ensures r.Undefined? <==> forall i :: 0 <= i < |bacteria| ==> !IsThreat(self, senses, bacteria[i])
    ensures r.Some? ==> r.value.isPredator && r.value.traits.size > self.traits.size
    ensures r.Some? ==> Perceives(self, senses, r.value.position)
    ensures r.Some? ==> FirstMatch(bacteria, (b: Bacterium) => IsThreat(self, senses, b), r.value)
  {
    FindFirst(bacteria, (b: Bacterium) => IsThreat(self, senses, b))
  }

  /** `lookForPrey`: the first strictly smaller perceived organism in list order. */
  function LookForPrey(self: Bacterium, senses: Senses, bacteria: seq<Bacterium>): (r: Option<Bacterium>)
    ensures r.Undefined? <==> forall i :: 0 <= i < |bacteria| ==> !IsPrey(self, senses, bacteria[i])
    ensures r.Some? ==> r.value.traits.size < self.traits.size && Perceives(self, senses, r.value.position)
    ensures r.Some? ==> FirstMatch(bacteria, (b: Bacterium) => IsPrey(self, senses, b), r.value)
  {
    FindFirst(bacteria, (b: Bacterium) => IsPrey(self, senses, b))
  }

  /** `lookForFood`: the first perceived food item in list order. */
  function LookForFood(self: Bacterium, senses: Senses, food: seq<Food>): (r: Option<Food>)
    ensures r.Undefined? <==> forall i :: 0 <= i < |food| ==> !IsVisibleFood(self, senses, food[i])
    ensures r.Some? ==> Perceives(self, senses, r.value.position)
    ensures r.Some? ==> FirstMatch(food, (f: Food) => IsVisibleFood(self, senses, f), r.value)
  {
    FindFirst(food, (f: Food) => IsVisibleFood(self, senses, f))
  }

  // ---------------------------------------------------------------- movement

  /** Outcome of `attemptEscape`. */
  datatype Escape = Caught | Escaped(moved: Bacterium)

  /** The normalised vector pointing away from the predator. */
  function EscapeDirection(self: Bacterium, predator: Bacterium, senses: Senses): Vec
  {
    senses.normalize(Vec(-(predator.position.x - self.position.x),
                         -(predator.position.y - self.position.y)))
  }

  /** `attemptEscape`: caught exactly when co-located with the predator;
      otherwise one step away from it. The reflected escape vector only turns
      the mesh; the position is the unreflected step and the facing direction
      is left as it was. */
  function AttemptEscape(self: Bacterium, predator: Bacterium, senses: Senses): (r: Escape)
    ensures r.Caught? <==> SameLocation(self.position, predator.position)
    ensures r.Escaped? ==>
      var dir := EscapeDirection(self, predator, senses);
      && r.moved == self.(position := r.moved.position, heading := r.moved.heading)
      && r.moved.position == Step(self.position, dir, self.traits.speed)
      && r.moved.heading == Reflect(dir, r.moved.position)
  {
    if SameLocation(self.position, predator.position) then Caught
    else
      var dir := EscapeDirection(self, predator, senses);
      var next := Step(self.position, dir, self.traits.speed);
      Escaped(self.(position := next, heading := Reflect(dir, next)))
  }

  /** Outcome of `attemptToEat`. */
  datatype Attempt = Attempt(success: bool, moved: Bacterium)

  /** `attemptToEat`: turn towards the target, jump onto it, and succeed when
      the roll is below the chance. */
  function AttemptToEat(self: Bacterium, target: Vec, chance: real, roll: Random, senses: Senses): (r: Attempt)
    ensures r.moved.position == target
    ensures r.moved == self.(position := target, facing := r.moved.facing, heading := r.moved.facing)
    ensures r.moved.facing == senses.normalize(Vec(target.x - self.position.x, target.y - self.position.y))
    ensures r.success <==> roll < chance
    ensures chance >= 1.0 ==> r.success
  {
    var dir := senses.normalize(Vec(target.x - self.position.x, target.y - self.position.y));
    Attempt(roll < chance, self.(position := target, facing := dir, heading := dir))
  }

  /** The wandering direction: the facing perturbed by a tenth of two
      `randomUnit()` draws, normalised. */
  function WanderDirection(self: Bacterium, senses: Senses, d: Draws): Vec
  {
    senses.normalize(Vec(self.facing.x + RandomUnit(d.jitterX) / 10.0,
                         self.facing.y + RandomUnit(d.jitterY) / 10.0))
  }

  /** `moveInRandomDirection`: one step along the perturbed direction; a
      component of the new facing is negated when the step leaves the domain on
      that axis, but the position is the unreflected step. */
  function MoveInRandomDirection(self: Bacterium, senses: Senses, d: Draws): (moved: Bacterium)
    ensures moved == self.(position := moved.position, facing := moved.facing, heading := moved.facing)
    ensures moved.position == Step(self.position, WanderDirection(self, senses, d), self.traits.speed)
  {
    var dir := WanderDirection(self, senses, d);
    var next := Step(self.position, dir, self.traits.speed);
    var turned := Reflect(dir, next);
    self.(position := next, facing := turned, heading := turned)
  }

  // --------------------------------------------------------------------- act

  /** `act`: the per-tick priority chain against the organism list and food
      list as the caller passes them. */
  function Act(self: Bacterium, bacteria: seq<Bacterium>, food: seq<Food>, senses: Senses, d: Draws): (t: Turn)
    ensures t.actor.id == self.id && t.actor.traits == self.traits
    ensures t.actor.colour == self.colour && t.actor.isPredator == self.isPredator
    ensures t.result.Die? ==> t.actor == self
    ensures t.result.Reproduce? <==> self.energy > ReproductionThreshold
    ensures t.result.Reproduce? ==> t.actor.energy == self.energy - ReproductionCost
    ensures t.result.EatFood? ==>
      && t.result.eatenFood in food
      && t.actor.energy == self.energy + FoodGain
      && t.actor.position == t.result.eatenFood.position
    ensures t.result.None? ==>
      var delta := t.actor.energy - self.energy;
      delta == -EscapeCost || delta == PreyGain || delta == -ActionCost
  {
    if self.energy <= 0 then Turn(self, Die)
    else if self.energy > ReproductionThreshold then
      Turn(self.(energy := self.energy - ReproductionCost), Reproduce(Offspring(self, senses, d)))
    else
      var others := Others(self, bacteria);
      match LookForPredators(self, senses, others)
      case Some(predator) =>
        (match AttemptEscape(self, predator, senses)
         case Caught => Turn(self, Die)
         case Escaped(moved) => Turn(moved.(energy := moved.energy - EscapeCost), None))
      case Undefined =>
        var prey := if self.isPredator then LookForPrey(self, senses, others) else Undefined;
        if prey.Some? then
          var hunt := AttemptToEat(self, prey.value.position, HuntChance, d.huntRoll, senses);
          var gain := if hunt.success then PreyGain else -ActionCost;
          Turn(hunt.moved.(energy := hunt.moved.energy + gain), None)
        else
          match LookForFood(self, senses, food)
          case Some(item) =>
            var meal := AttemptToEat(self, item.position, FoodChance, d.foodRoll, senses);
            if meal.success then Turn(meal.moved.(energy := meal.moved.energy + FoodGain), EatFood(item))
            else Turn(meal.moved.(energy := meal.moved.energy - ActionCost), None)
          case Undefined =>
            var moved := MoveInRandomDirection(self, senses, d);
            Turn(moved.(energy := moved.energy - ActionCost), None)
  }
}

=== FILE: decisions.dfy ===
/** Properties of `act`, one lemma per link of its priority chain: each states
    when the branch is taken and exactly what it does to the organism. */
module Decisions {
  import opened Sequences
  import opened Scene
  import opened Bacteria

  /** A threat or prey that `act` picks is never the actor itself and is one of
      the organisms it was given. */
  lemma CandidatesExcludeSelf(self: Bacterium, senses: Senses, bacteria: seq<Bacterium>)
    ensures var p := LookForPredators(self, senses, Others(self, bacteria));
            p.Some? ==> p.value.id != self.id && p.value in bacteria
    ensures var q := LookForPrey(self, senses, Others(self, bacteria));
            q.Some? ==> q.value.id != self.id && q.value in bacteria
  {
    var others := Others(self, bacteria);
    var p := LookForPredators(self, senses, others);
    if p.Some? {
      var i :| 0 <= i < |others| && others[i] == p.value;
    }
    var q := LookForPrey(self, senses, others);
    if q.Some? {
      var i :| 0 <= i < |others| && others[i] == q.value;
    }
  }

  /** With no energy left the organism dies, and nothing about it changes;
      this test precedes every other branch. */
  lemma ActDiesWhenExhausted(self: Bacterium, bacteria: seq<Bacterium>, food: seq<Food>, senses: Senses, d: Draws)
    requires self.energy <= 0
    ensures Act(self, bacteria, food, senses, d) == Turn(self, Die)
  {
  }

  /** Above the threshold the organism reproduces: the parent only loses the
      reproduction cost, and the child is a fresh organism with the parent's
      colour and position, 1000 energy, traits at most one mutation away from
      the parent's, and no predator status unless a predation mutation
      granted it. */
  lemma ActReproduces(self: Bacterium, bacteria: seq<Bacterium>, food: seq<Food>, senses: Senses, d: Draws)
    requires self.energy > ReproductionThreshold
    ensures var t := Act(self, bacteria, food, senses, d);
      && t.actor == self.(energy := self.energy - ReproductionCost)
      && t.result.Reproduce?
      && var child := t.result.newBacterium;
      && child.id == d.childId
      && child.colour == self.colour && child.position == self.position
      && child.energy == InitialEnergy
      && (d.mutationGate < MutationGate ==> child.traits == self.traits && !child.isPredator)
      && (d.mutationGate >= MutationGate && d.mutation.skip >= NoMutationChance ==>
            MutationEffect(self.traits, false, d.mutation, child.traits, child.isPredator))
      && AtMostOneTraitChanged(self.(isPredator := false), child)
  {
  }

  /** When a threat is found, the organism dies exactly when it shares the
      threat's location; otherwise it steps away and pays the escape cost. */
  lemma ActFlees(self: Bacterium, bacteria: seq<Bacterium>, food: seq<Food>, senses: Senses, d: Draws, predator: Bacterium)
    requires 0 < self.energy <= ReproductionThreshold
    requires LookForPredators(self, senses, Others(self, bacteria)) == Some(predator)
    ensures var t := Act(self, bacteria, food, senses, d);
      && (t.result.Die? <==> SameLocation(self.position, predator.position))
      && (t.result.Die? ==> t.actor == self)
      && (!t.result.Die? ==>
            && t.result.None?
            && t.actor.energy == self.energy - EscapeCost
            && t.actor.facing == self.facing
            && t.actor.position == Step(self.position, EscapeDirection(self, predator, senses), self.traits.speed))
  {
  }

  /** A predator that sees no threat but sees prey jumps onto the prey and
      gains 2000 energy when the roll is below 0.9, otherwise loses 1; the
      action is None either way and the prey is not removed. */
  lemma ActHunts(self: Bacterium, bacteria: seq<Bacterium>, food: seq<Food>, senses: Senses, d: Draws, prey: Bacterium)
    requires 0 < self.energy <= ReproductionThreshold
    requires LookForPredators(self, senses, Others(self, bacteria)) == Undefined
    requires self.isPredator
    requires LookForPrey(self, senses, Others(self, bacteria)) == Some(prey)
    ensures var t := Act(self, bacteria, food, senses, d);
      && t.result.None?
      && t.actor.position == prey.position
      && t.actor.energy == self.energy + (if d.huntRoll < HuntChance then PreyGain else -ActionCost)
  {
  }

  /** Prey is only looked for by predators: an organism that is not a predator
      and sees no threat acts exactly as if no other organism were present. */
  lemma NonPredatorsIgnorePrey(self: Bacterium, bacteria: seq<Bacterium>, food: seq<Food>, senses: Senses, d: Draws)
    requires 0 < self.energy <= ReproductionThreshold
    requires !self.isPredator
    requires LookForPredators(self, senses, Others(self, bacteria)) == Undefined
    ensures Act(self, bacteria, food, senses, d) == Act(self, [], food, senses, d)
  {
    assert Others(self, []) == [];
  }

  /** With no threat and no prey taken, the first perceived food item is
      always eaten (the success chance is 1): the organism moves onto it and
      gains 1000 energy. */
  lemma ActForages(self: Bacterium, bacteria: seq<Bacterium>, food: seq<Food>, senses: Senses, d: Draws, item: Food)
    requires 0 < self.energy <= ReproductionThreshold
    requires LookForPredators(self, senses, Others(self, bacteria)) == Undefined
    requires !self.isPredator || LookForPrey(self, senses, Others(self, bacteria)) == Undefined
    requires LookForFood(self, senses, food) == Some(item)
    ensures var t := Act(self, bacteria, food, senses, d);
      && t.result == EatFood(item)
      && t.actor.energy == self.energy + FoodGain
      && t.actor.position == item.position
      && t.actor.facing == t.actor.heading
  {
  }

  /** With nothing to flee, hunt or eat, the organism wanders: it pays 1
      energy, moves to the unclamped prospective position, and each facing
      component is negated exactly when that prospective coordinate lies
      outside the domain. */
  lemma ActWanders(self: Bacterium, bacteria: seq<Bacterium>, food: seq<Food>, senses: Senses, d: Draws)
    requires 0 < self.energy <= ReproductionThreshold
    requires LookForPredators(self, senses, Others(self, bacteria)) == Undefined
    requires !self.isPredator || LookForPrey(self, senses, Others(self, bacteria)) == Undefined
    requires LookForFood(self, senses, food) == Undefined
    ensures var t := Act(self, bacteria, food, senses, d);
      var dir := WanderDirection(self, senses, d);
      var p := Step(self.position, dir, self.traits.speed);
      && t.result.None?
      && t.actor.energy == self.energy - ActionCost
      && t.actor.position == p
      && t.actor.facing.x == (if OutOfBounds(p.x) then -dir.x else dir.x)
      && t.actor.facing.y == (if OutOfBounds(p.y) then -dir.y else dir.y)
      && t.actor.heading == t.actor.facing
  {
  }

  /** Size comparisons are strict: an organism of equal size is neither a
      threat nor prey, so among equals with no food in sight every organism
      wanders. */
  lemma EqualSizesWander(self: Bacterium, bacteria: seq<Bacterium>, food: seq<Food>, senses: Senses, d: Draws)
    requires 0 < self.energy <= ReproductionThreshold
    requires forall i :: 0 <= i < |bacteria| ==> bacteria[i].traits.size == self.traits.size
    requires forall i :: 0 <= i < |food| ==> !Perceives(self, senses, food[i].position)
    ensures var t := Act(self, bacteria, food, senses, d);
      && t.result.None?
      && t.actor.energy == self.energy - ActionCost
      && t.actor.position == Step(self.position, WanderDirection(self, senses, d), self.traits.speed)
  {
    var others := Others(self, bacteria);
    assert forall i :: 0 <= i < |others| ==> others[i].traits.size == self.traits.size by {
      forall i | 0 <= i < |others|
        ensures others[i].traits.size == self.traits.size
      {
        var j :| 0 <= j < |bacteria| && bacteria[j] == others[i];
      }
    }
  }

  /** The threat `act` reacts to is the first organism of the whole list, in
      list order, that is not the actor and is a threat to it. */
  lemma FirstThreatInList(self: Bacterium, senses: Senses, bacteria: seq<Bacterium>)
    ensures LookForPredators(self, senses, Others(self, bacteria))
         == FindFirst(bacteria, (b: Bacterium) => b.id != self.id && IsThreat(self, senses, b))
  {
    FindFirstFilter(bacteria, (b: Bacterium) => b.id != self.id, (b: Bacterium) => IsThreat(self, senses, b),
                    (b: Bacterium) => b.id != self.id && IsThreat(self, senses, b));
  }

  /** The prey `act` hunts is the first organism of the whole list, in list
      order, that is not the actor and is prey to it. */
  lemma FirstPreyInList(self: Bacterium, senses: Senses, bacteria: seq<Bacterium>)
    ensures LookForPrey(self, senses, Others(self, bacteria))
         == FindFirst(bacteria, (b: Bacterium) => b.id != self.id && IsPrey(self, senses, b))
  {
    FindFirstFilter(bacteria, (b: Bacterium) => b.id != self.id, (b: Bacterium) => IsPrey(self, senses, b),
                    (b: Bacterium) => b.id != self.id && IsPrey(self, senses, b));
  }

  /** A death away from the exhaustion test always has a cause: a distinct,
      strictly larger, perceived predator at the same location. */
  lemma DeathHasACause(self: Bacterium, bacteria: seq<Bacterium>, food: seq<Food>, senses: Senses, d: Draws)
    requires Act(self, bacteria, food, senses, d).result.Die?
    requires self.energy > 0
    ensures exists i :: 0 <= i < |bacteria| && bacteria[i].id != self.id
                        && IsThreat(self, senses, bacteria[i])
                        && SameLocation(self.position, bacteria[i].position)
  {
    var others := Others(self, bacteria);
    var p := LookForPredators(self, senses, others);
    assert p.Some?;
    var k :| 0 <= k < |others| && others[k] == p.value;
    var i :| 0 <= i < |bacteria| && bacteria[i] == others[k];
  }

  // ------------------------------------------------------- leaving the domain

  /** An escape that starts inside the domain can end outside it, because the
      position is the unreflected step. An organism at (4.99, 0) with speed 0.05
      flees a predator at (4.98, 0) along (1, 0). It lands at x = 5.04 and keeps
      its facing. */
  lemma EscapeCanLeaveTheDomain(self: Bacterium, predator: Bacterium, senses: Senses)
    requires self.position == Vec(4.99, 0.0) && predator.position == Vec(4.98, 0.0)
    requires self.traits.speed == 0.05
    requires senses.normalize(Vec(0.01, 0.0)) == Vec(1.0, 0.0)
    ensures var r := AttemptEscape(self, predator, senses);
            && r.Escaped?
            && r.moved.position == Vec(5.04, 0.0)
            && OutOfBounds(r.moved.position.x)
            && r.moved.facing == self.facing
  {
    assert !SameLocation(self.position, predator.position);
    assert EscapeDirection(self, predator, senses) == Vec(1.0, 0.0);
  }

  /** Farther than one step beyond the right edge, a wandering step (along a
      direction of length at most 1 on that axis) ends outside the domain again,
      so the boundary rule negates the facing. A step taken back towards the
      domain therefore leaves the organism facing away from it. */
  lemma FarOutsideTurnsOutward(self: Bacterium, senses: Senses, d: Draws)
    requires 0.0 <= self.traits.speed
    requires self.position.x > Bound + self.traits.speed
    requires -1.0 <= WanderDirection(self, senses, d).x <= 1.0
    ensures var dir := WanderDirection(self, senses, d);
            var moved := MoveInRandomDirection(self, senses, d);
            && OutOfBounds(moved.position.x)
            && moved.facing.x == -dir.x
            && (dir.x < 0.0 ==> moved.facing.x > 0.0)
  {
    var dir := WanderDirection(self, senses, d);
    var speed := self.traits.speed;
    assert dir.x * speed >= -speed by {
      if dir.x < 0.0 {
        assert (-dir.x) * speed <= 1.0 * speed;
      }
    }
    var next := Step(self.position, dir, speed);
    assert next.x == self.position.x + dir.x * speed;
    assert next.x > Bound;
  }
}

=== FILE: leaderboard.dfy ===
/** The leaderboard projection `updateBacteria`: count the bacteria per colour
    in a dictionary (whose keys enumerate in insertion order, that is, in order
    of first appearance), turn the dictionary into a list of entries, and sort
    it by count, largest first. The sort is stable, so entries with equal
    counts keep their first-appearance order. */
module Leaderboard {
  import opened Sequences
  import opened Bacteria

  /** One row: a colour and how many bacteria carry it. */
  datatype Entry = Entry(colour: Colour, bacteria: nat)

  /** The colour of each bacterium, in list order (`bacterium.getColour()`). */
  function ColoursOf(bacteria: seq<Bacterium>): (cs: seq<Colour>)
    ensures |cs| == |bacteria|
    ensures forall i :: 0 <= i < |bacteria| ==> cs[i] == bacteria[i].colour
  {
    seq(|bacteria|, i requires 0 <= i < |bacteria| => bacteria[i].colour)
  }

  /** How many bacteria have colour `c`. */
  function Occurrences(bacteria: seq<Bacterium>, c: Colour): nat
  {
    multiset(ColoursOf(bacteria))[c]
  }

  predicate HasKey(t: seq<Entry>, c: Colour)
  {
    exists i :: 0 <= i < |t| && t[i].colour == c
  }

  predicate DistinctKeys(t: seq<Entry>)
  {
    forall i, j :: 0 <= i < j < |t| ==> t[i].colour != t[j].colour
  }

  /** The sum of the counts. */
  function Total(t: seq<Entry>): nat
  {
    if |t| == 0 then 0 else t[0].bacteria + Total(t[1..])
  }

  lemma {:induction false} TotalAppend(t: seq<Entry>, e: Entry)
    ensures Total(t + [e]) == Total(t) + e.bacteria
  {
    if |t| != 0 {
      assert (t + [e])[1..] == t[1..] + [e];
      TotalAppend(t[1..], e);
    }
  }

  /** Facts about the head and tail of a list of entries. */
  lemma HasKeyCons(x: Entry, t: seq<Entry>, c: Colour)
    ensures HasKey([x] + t, c) <==> x.colour == c || HasKey(t, c)
  {
    var u := [x] + t;
    if x.colour == c {
      assert u[0].colour == c;
    }
    if HasKey(t, c) {
      var k :| 0 <= k < |t| && t[k].colour == c;
      assert u[k + 1].colour == c;
    }
    if HasKey(u, c) && x.colour != c {
      var k :| 0 <= k < |u| && u[k].colour == c;
      assert k > 0 && u[k] == t[k - 1];
    }
  }

  lemma DistinctCons(x: Entry, t: seq<Entry>)
    ensures DistinctKeys([x] + t) <==> DistinctKeys(t) && !HasKey(t, x.colour)
  {
    var u := [x] + t;
    HasKeyCons(x, t, x.colour);
    assert forall i :: 0 <= i < |t| ==> t[i] == u[i + 1];
    if DistinctKeys(t) && !HasKey(t, x.colour) {
      forall i, j | 0 <= i < j < |u|
        ensures u[i].colour != u[j].colour
      {
        if i == 0 {
          assert u[j] == t[j - 1];
        } else {
          assert u[i] == t[i - 1] && u[j] == t[j - 1];
        }
      }
    }
    if DistinctKeys(u) {
      forall k | 0 <= k < |t|
        ensures t[k].colour != x.colour
      {
        assert u[k + 1] == t[k] && u[0] == x;
      }
    }
  }

  // --------------------------------------------------------------- counting

  /** One iteration of the counting loop: increment the colour's entry, or add
      it with count 1. */
  function Bump(t: seq<Entry>, c: Colour): seq<Entry>
  {
    if |t| == 0 then [Entry(c, 1)]
    else if t[0].colour == c then [t[0].(bacteria := t[0].bacteria + 1)] + t[1..]
    else [t[0]] + Bump(t[1..], c)
  }

  /** A known colour has its count incremented in place, the other entries
      are untouched, and the total grows by one. */
  lemma {:induction false} BumpKnown(t: seq<Entry>, c: Colour)
    requires DistinctKeys(t) && HasKey(t, c)
    ensures var u := Bump(t, c);
      && |u| == |t|
      && (forall i :: 0 <= i < |t| ==> u[i].colour == t[i].colour)
      && (forall i :: 0 <= i < |t| ==> u[i].bacteria == t[i].bacteria + (if t[i].colour == c then 1 else 0))
      && Total(u) == Total(t) + 1
  {
    var u := Bump(t, c);
    assert t == [t[0]] + t[1..];
    HasKeyCons(t[0], t[1..], c);
    DistinctCons(t[0], t[1..]);
    if t[0].colour != c {
      BumpKnown(t[1..], c);
      assert forall i :: 0 < i < |t| ==> u[i] == Bump(t[1..], c)[i - 1] && t[i] == t[1..][i - 1];
    } else {
      forall i | 0 < i < |t|
        ensures u[i] == t[i] && t[i].colour != c
      {
        assert t[i] == t[1..][i - 1];
      }
    }
  }

  /** An unknown colour is appended with count 1. */
  lemma {:induction false} BumpNew(t: seq<Entry>, c: Colour)
    requires !HasKey(t, c)
    ensures Bump(t, c) == t + [Entry(c, 1)]
  {
    if |t| != 0 {
      assert t == [t[0]] + t[1..];
      HasKeyCons(t[0], t[1..], c);
      BumpNew(t[1..], c);
    }
  }

  /** The counting loop over the colours (the dictionary, in insertion order). */
  function Tally(cs: seq<Colour>): seq<Entry>
  {
    if |cs| == 0 then [] else Bump(Tally(cs[..|cs| - 1]), cs[|cs| - 1])
  }

  /** The dictionary has one entry per distinct colour, each holding that
      colour's number of occurrences (at least 1), and the counts add up to
      the number of colours counted. */
  lemma {:induction false} TallyFacts(cs: seq<Colour>)
    ensures var t := Tally(cs);
      && DistinctKeys(t)
      && (forall c :: HasKey(t, c) <==> c in cs)
      && (forall i :: 0 <= i < |t| ==> t[i].bacteria == multiset(cs)[t[i].colour] && t[i].bacteria >= 1)
      && Total(t) == |cs|
    decreases |cs|
  {
    if |cs| != 0 {
      var front := cs[..|cs| - 1];
      var c := cs[|cs| - 1];
      assert cs == front + [c];
      TallyFacts(front);
      var t := Tally(front);
      var u := Tally(cs);
      if HasKey(t, c) {
        BumpKnown(t, c);
        TallyKnownStep(t, u, front, c);
      } else {
        BumpNew(t, c);
        TotalAppend(t, Entry(c, 1));
        TallyNewStep(t, front, c);
      }
    }
  }

  /** The inductive step of `TallyFacts` for a colour already counted. */
  lemma TallyKnownStep(t: seq<Entry>, u: seq<Entry>, front: seq<Colour>, c: Colour)
    requires DistinctKeys(t) && HasKey(t, c)
    requires forall d :: HasKey(t, d) <==> d in front
    requires forall i :: 0 <= i < |t| ==> t[i].bacteria == multiset(front)[t[i].colour] && t[i].bacteria >= 1
    requires |u| == |t|
    requires forall i :: 0 <= i < |t| ==> u[i].colour == t[i].colour
    requires forall i :: 0 <= i < |t| ==> u[i].bacteria == t[i].bacteria + (if t[i].colour == c then 1 else 0)
    ensures DistinctKeys(u)
    ensures forall d :: HasKey(u, d) <==> d in front + [c]
    ensures forall i :: 0 <= i < |u| ==> u[i].bacteria == multiset(front + [c])[u[i].colour] && u[i].bacteria >= 1
  {
    assert multiset(front + [c]) == multiset(front) + multiset{c};
    forall d
      ensures HasKey(u, d) <==> HasKey(t, d)
    {
      if HasKey(u, d) {
        var k :| 0 <= k < |u| && u[k].colour == d;
        assert t[k].colour == d;
      }
      if HasKey(t, d) {
        var k :| 0 <= k < |t| && t[k].colour == d;
        assert u[k].colour == d;
      }
    }
  }

  /** The inductive step of `TallyFacts` for a colour seen for the first time. */
  lemma TallyNewStep(t: seq<Entry>, front: seq<Colour>, c: Colour)
    requires DistinctKeys(t) && !HasKey(t, c)
    requires forall d :: HasKey(t, d) <==> d in front
    requires forall i :: 0 <= i < |t| ==> t[i].bacteria == multiset(front)[t[i].colour] && t[i].bacteria >= 1
    ensures var u := t + [Entry(c, 1)];
      && DistinctKeys(u)
      && (forall d :: HasKey(u, d) <==> d in front + [c])
      && (forall i :: 0 <= i < |u| ==> u[i].bacteria == multiset(front + [c])[u[i].colour] && u[i].bacteria >= 1)
  {
    var u := t + [Entry(c, 1)];
    assert multiset(front + [c]) == multiset(front) + multiset{c};
    assert c !in front;
    forall d
      ensures HasKey(u, d) <==> HasKey(t, d) || d == c
    {
      if HasKey(u, d) {
        var k :| 0 <= k < |u| && u[k].colour == d;
        if k < |t| {
          assert t[k].colour == d;
        }
      }
      if HasKey(t, d) {
        var k :| 0 <= k < |t| && t[k].colour == d;
        assert u[k].colour == d;
      }
      if d == c {
        assert u[|t|].colour == d;
      }
    }
    forall i | 0 <= i < |u|
      ensures u[i].bacteria == multiset(front + [c])[u[i].colour] && u[i].bacteria >= 1
    {
      if i < |t| {
        assert u[i] == t[i];
        assert u[i].colour != c by {
          assert HasKey(t, t[i].colour);
        }
      }
    }
  }

  // ------------------------------------------------------- first appearance

  /** The position of the first occurrence of `c` in `cs`. */
  function FirstIndex(cs: seq<Colour>, c: Colour): (k: nat)
    requires c in cs
    ensures k < |cs| && cs[k] == c
  {
    if cs[0] == c then 0 else 1 + FirstIndex(cs[1..], c)
  }

  /** No earlier position holds `c`. */
  lemma {:induction false} FirstIndexMinimal(cs: seq<Colour>, c: Colour, j: nat)
    requires c in cs && j < FirstIndex(cs, c)
    ensures cs[j] != c
    decreases |cs|
  {
    if j > 0 {
      FirstIndexMinimal(cs[1..], c, j - 1);
    }
  }

  /** Every entry's colour occurs in `cs`, and the entries are listed in the
      order in which their colours first occur there. */
  predicate InFirstAppearanceOrder(cs: seq<Colour>, t: seq<Entry>)
  {
    && (forall i :: 0 <= i < |t| ==> t[i].colour in cs)
    && (forall i, j :: 0 <= i < j < |t| ==> FirstIndex(cs, t[i].colour) < FirstIndex(cs, t[j].colour))
  }

  /** Appending a colour does not move the first occurrence of one already
      present; a colour seen for the first time occurs first at the end. */
  lemma FirstIndexAppend(cs: seq<Colour>, c: Colour)
    ensures forall d :: d in cs ==> FirstIndex(cs + [c], d) == FirstIndex(cs, d)
    ensures c !in cs ==> FirstIndex(cs + [c], c) == |cs|
  {
    forall d | d in cs
      ensures FirstIndex(cs + [c], d) == FirstIndex(cs, d)
    {
      var k := FirstIndex(cs, d);
      var k' := FirstIndex(cs + [c], d);
      if k < k' {
        FirstIndexMinimal(cs + [c], d, k);
      } else if k' < k {
        FirstIndexMinimal(cs, d, k');
      }
    }
  }

  /** The dictionary's insertion order is the order of first appearance: a
      colour already counted keeps its place, and a new one is appended. */
  lemma {:induction false} TallyFirstAppearance(cs: seq<Colour>)
    ensures InFirstAppearanceOrder(cs, Tally(cs))
    decreases |cs|
  {
    if |cs| != 0 {
      var front := cs[..|cs| - 1];
      var c := cs[|cs| - 1];
      assert cs == front + [c];
      TallyFirstAppearance(front);
      TallyFacts(front);
      FirstIndexAppend(front, c);
      var t := Tally(front);
      if HasKey(t, c) {
        BumpKnown(t, c);
        OrderKnownStep(front, c, t, Bump(t, c));
      } else {
        BumpNew(t, c);
        OrderNewStep(front, c, t);
      }
    }
  }

  /** The inductive step of `TallyFirstAppearance` for a colour already
      counted: the colours stay where they were. */
  lemma OrderKnownStep(front: seq<Colour>, c: Colour, t: seq<Entry>, u: seq<Entry>)
    requires InFirstAppearanceOrder(front, t)
    requires forall d :: d in front ==> FirstIndex(front + [c], d) == FirstIndex(front, d)
    requires |u| == |t| && forall i :: 0 <= i < |t| ==> u[i].colour == t[i].colour
    ensures InFirstAppearanceOrder(front + [c], u)
  {
    assert forall i :: 0 <= i < |u| ==> u[i].colour in front;
  }

  /** The inductive step of `TallyFirstAppearance` for a new colour: it is
      appended, and it occurs first after every colour already counted. */
  lemma OrderNewStep(front: seq<Colour>, c: Colour, t: seq<Entry>)
    requires InFirstAppearanceOrder(front, t)
    requires c !in front
    requires forall d :: d in front ==> FirstIndex(front + [c], d) == FirstIndex(front, d)
    requires FirstIndex(front + [c], c) == |front|
    ensures InFirstAppearanceOrder(front + [c], t + [Entry(c, 1)])
  {
    var u := t + [Entry(c, 1)];
    assert forall i :: 0 <= i < |t| ==> u[i] == t[i] && u[i].colour in front;
  }

  /** Filtering a list keeps it in first-appearance order. */
  lemma {:induction false} FilterFirstAppearance(cs: seq<Colour>, t: seq<Entry>, p: Entry -> bool)
    requires InFirstAppearanceOrder(cs, t)
    ensures InFirstAppearanceOrder(cs, Filter(t, p))
    decreases |t|
  {
    if |t| != 0 {
      var front := t[..|t| - 1];
      var x := t[|t| - 1];
      assert forall i :: 0 <= i < |front| ==> front[i] == t[i];
      FilterFirstAppearance(cs, front, p);
      FilterMembers(front, p);
      var f := Filter(front, p);
      forall i | 0 <= i < |f|
        ensures FirstIndex(cs, f[i].colour) < FirstIndex(cs, x.colour)
      {
        var k :| 0 <= k < |front| && front[k] == f[i];
      }
    }
  }

  // ---------------------------------------------------------------- sorting

  predicate SortedByCount(t: seq<Entry>)
  {
    forall i, j :: 0 <= i < j < |t| ==> t[i].bacteria >= t[j].bacteria
  }

  /** Insert `e` before the first entry whose count does not exceed its own. */
  function Insert(e: Entry, s: seq<Entry>): seq<Entry>
  {
    if |s| == 0 || e.bacteria >= s[0].bacteria then [e] + s
    else [s[0]] + Insert(e, s[1..])
  }

  /** `leaderboard.sort((a, b) => b.bacteria - a.bacteria)`: a stable sort, by
      count, largest first. */
  function SortByCount(t: seq<Entry>): seq<Entry>
  {
    if |t| == 0 then [] else Insert(t[0], SortByCount(t[1..]))
  }

  /** Entries with count `v`. */
  function HasCount(v: nat): Entry -> bool
  {
    (e: Entry) => e.bacteria == v
  }

  lemma {:induction false} InsertPermutes(e: Entry, s: seq<Entry>)
    ensures multiset(Insert(e, s)) == multiset(s) + multiset{e}
    ensures Total(Insert(e, s)) == e.bacteria + Total(s)
  {
    if |s| != 0 && e.bacteria < s[0].bacteria {
      InsertPermutes(e, s[1..]);
      assert s == [s[0]] + s[1..];
    }
  }

  lemma {:induction false} InsertSorted(e: Entry, s: seq<Entry>)
    requires SortedByCount(s)
    ensures SortedByCount(Insert(e, s))
  {
    if |s| == 0 || e.bacteria >= s[0].bacteria {
      ConsSorted(e, s);
    } else {
      var rest := Insert(e, s[1..]);
      InsertSorted(e, s[1..]);
      InsertPermutes(e, s[1..]);
      forall j | 0 <= j < |rest|
        ensures s[0].bacteria >= rest[j].bacteria
      {
        assert rest[j] in multiset(rest);
      }
      ConsSorted(s[0], rest);
    }
  }

  /** An entry whose count bounds a sorted list can head it. */
  lemma ConsSorted(x: Entry, t: seq<Entry>)
    requires SortedByCount(t)
    requires forall j :: 0 <= j < |t| ==> x.bacteria >= t[j].bacteria
    ensures SortedByCount([x] + t)
  {
    var u := [x] + t;
    forall i, j | 0 <= i < j < |u|
      ensures u[i].bacteria >= u[j].bacteria
    {
      assert u[j] == t[j - 1];
      if i > 0 {
        assert u[i] == t[i - 1];
      }
    }
  }

  /** Insertion adds exactly the inserted entry's colour to the keys. */
  lemma {:induction false} InsertKeys(e: Entry, s: seq<Entry>, c: Colour)
    ensures HasKey(Insert(e, s), c) <==> c == e.colour || HasKey(s, c)
  {
    if |s| == 0 || e.bacteria >= s[0].bacteria {
      HasKeyCons(e, s, c);
    } else {
      assert s == [s[0]] + s[1..];
      InsertKeys(e, s[1..], c);
      HasKeyCons(s[0], s[1..], c);
      HasKeyCons(s[0], Insert(e, s[1..]), c);
    }
  }

  /** Inserting an entry with a fresh colour keeps the keys distinct. */
  lemma {:induction false} InsertDistinct(e: Entry, s: seq<Entry>)
    requires DistinctKeys(s) && !HasKey(s, e.colour)
    ensures DistinctKeys(Insert(e, s))
  {
    if |s| == 0 || e.bacteria >= s[0].bacteria {
      DistinctCons(e, s);
    } else {
      var rest := Insert(e, s[1..]);
      assert s == [s[0]] + s[1..];
      DistinctCons(s[0], s[1..]);
      HasKeyCons(s[0], s[1..], e.colour);
      InsertDistinct(e, s[1..]);
      InsertKeys(e, s[1..], s[0].colour);
      DistinctCons(s[0], rest);
    }
  }

  /** Insertion places the entry among the others without reordering any of
      them, and ahead of them only when its count is larger, so the entries
      of any one count keep their order. */
  lemma {:induction false} InsertStable(e: Entry, s: seq<Entry>, v: nat)
    ensures Filter(Insert(e, s), HasCount(v)) == Filter([e], HasCount(v)) + Filter(s, HasCount(v))
  {
    if |s| == 0 || e.bacteria >= s[0].bacteria {
      assert Insert(e, s) == [e] + s;
      FilterAppend([e], s, HasCount(v));
    } else {
      InsertStable(e, s[1..], v);
      InsertStableStep(e, s, v);
    }
  }

  /** The inductive step of `InsertStable`: the entry passes `s[0]`, whose
      count is larger, so at most one of the two is kept by the filter. */
  lemma InsertStableStep(e: Entry, s: seq<Entry>, v: nat)
    requires |s| != 0 && e.bacteria < s[0].bacteria
    requires Filter(Insert(e, s[1..]), HasCount(v)) == Filter([e], HasCount(v)) + Filter(s[1..], HasCount(v))
    ensures Filter(Insert(e, s), HasCount(v)) == Filter([e], HasCount(v)) + Filter(s, HasCount(v))
  {
    var p := HasCount(v);
    var rest := Insert(e, s[1..]);
    calc {
      Filter(Insert(e, s), p);
      Filter([s[0]] + rest, p);
      { PassOver(s[0], e, rest, s[1..], p); }
      Filter([e], p) + Filter([s[0]] + s[1..], p);
      { assert s == [s[0]] + s[1..]; }
      Filter([e], p) + Filter(s, p);
    }
  }

  /** Moving an entry past one that the filter drops, or that it keeps while
      dropping the mover, leaves the filtered sequence unchanged. */
  lemma PassOver(x: Entry, e: Entry, rest: seq<Entry>, tail: seq<Entry>, p: Entry -> bool)
    requires !p(x) || !p(e)
    requires Filter(rest, p) == Filter([e], p) + Filter(tail, p)
    ensures Filter([x] + rest, p) == Filter([e], p) + Filter([x] + tail, p)
  {
    if p(x) {
      FilterSingle(e, p);
      var ft := Filter(tail, p);
      assert Filter(rest, p) == ft;
      FilterKeepsHead(x, rest, p);
      FilterKeepsHead(x, tail, p);
      assert Filter([x] + rest, p) == [x] + ft == Filter([x] + tail, p);
    } else {
      FilterDropsHead(x, rest, p);
      FilterDropsHead(x, tail, p);
    }
  }

  /** Filtering a sequence whose head the filter keeps. */
  lemma FilterKeepsHead(x: Entry, s: seq<Entry>, p: Entry -> bool)
    requires p(x)
    ensures Filter([x] + s, p) == [x] + Filter(s, p)
  {
    FilterAppend([x], s, p);
    FilterSingle(x, p);
  }

  /** Filtering a sequence whose head the filter drops. */
  lemma FilterDropsHead(x: Entry, s: seq<Entry>, p: Entry -> bool)
    requires !p(x)
    ensures Filter([x] + s, p) == Filter(s, p)
  {
    FilterAppend([x], s, p);
    FilterSingle(x, p);
  }

  /** The sort returns a sorted permutation of its input with the same total. */
  lemma {:induction false} SortPermutes(t: seq<Entry>)
    ensures multiset(SortByCount(t)) == multiset(t)
    ensures SortedByCount(SortByCount(t))
    ensures Total(SortByCount(t)) == Total(t)
  {
    if |t| != 0 {
      SortPermutes(t[1..]);
      InsertPermutes(t[0], SortByCount(t[1..]));
      InsertSorted(t[0], SortByCount(t[1..]));
      assert t == [t[0]] + t[1..];
    }
  }

  /** The sort keeps one entry per colour and the same set of colours. */
  lemma {:induction false} SortDistinct(t: seq<Entry>)
    requires DistinctKeys(t)
    ensures DistinctKeys(SortByCount(t))
    ensures forall c :: HasKey(SortByCount(t), c) <==> HasKey(t, c)
  {
    if |t| != 0 {
      assert t == [t[0]] + t[1..];
      DistinctCons(t[0], t[1..]);
      SortDistinct(t[1..]);
      InsertDistinct(t[0], SortByCount(t[1..]));
      forall c
        ensures HasKey(SortByCount(t), c) <==> HasKey(t, c)
      {
        HasKeyCons(t[0], t[1..], c);
        InsertKeys(t[0], SortByCount(t[1..]), c);
      }
    }
  }

  /** Entries of equal count keep their original relative order. */
  lemma {:induction false} SortStable(t: seq<Entry>, v: nat)
    ensures Filter(SortByCount(t), HasCount(v)) == Filter(t, HasCount(v))
  {
    if |t| != 0 {
      SortStable(t[1..], v);
      InsertStable(t[0], SortByCount(t[1..]), v);
      assert t == [t[0]] + t[1..];
      FilterAppend([t[0]], t[1..], HasCount(v));
    }
  }

  // ------------------------------------------------------------- the board

  /** `updateBacteria`: the previous leaderboard is discarded and rebuilt from
      the colour counts, sorted by count. */
  function UpdateBacteria(bacteria: seq<Bacterium>): (board: seq<Entry>)
    ensures DistinctKeys(board)
    ensures forall c :: HasKey(board, c) <==> exists i :: 0 <= i < |bacteria| && bacteria[i].colour == c
    ensures forall i :: 0 <= i < |board| ==>
      board[i].bacteria == Occurrences(bacteria, board[i].colour) && board[i].bacteria >= 1
    ensures Total(board) == |bacteria|
    ensures SortedByCount(board)
    ensures |bacteria| == 0 ==> board == []
  {
    var board := SortByCount(Tally(ColoursOf(bacteria)));
    BoardFacts(bacteria);
    board
  }

  /** The facts `UpdateBacteria` promises, about the sorted tally. */
  lemma BoardFacts(bacteria: seq<Bacterium>)
    ensures var board := SortByCount(Tally(ColoursOf(bacteria)));
      && DistinctKeys(board)
      && (forall c :: HasKey(board, c) <==> exists i :: 0 <= i < |bacteria| && bacteria[i].colour == c)
      && (forall i :: 0 <= i < |board| ==>
            board[i].bacteria == Occurrences(bacteria, board[i].colour) && board[i].bacteria >= 1)
      && Total(board) == |bacteria|
      && SortedByCount(board)
  {
    var cs := ColoursOf(bacteria);
    var t := Tally(cs);
    var board := SortByCount(t);
    TallyFacts(cs);
    SortPermutes(t);
    SortDistinct(t);
    forall c
      ensures c in cs <==> exists i :: 0 <= i < |bacteria| && bacteria[i].colour == c
    {
      if c in cs {
        var i :| 0 <= i < |cs| && cs[i] == c;
        assert bacteria[i].colour == c;
      }
    }
    forall i | 0 <= i < |board|
      ensures board[i].bacteria == Occurrences(bacteria, board[i].colour) && board[i].bacteria >= 1
    {
      assert board[i] in multiset(t);
      var k :| 0 <= k < |t| && t[k] == board[i];
    }
  }

  /** Entries with equal counts appear in the order their colours first
      appeared: the board restricted to any one count is the dictionary
      restricted to that count, and so lists those colours in order of their
      first occurrence among the bacteria. */
  lemma LeaderboardTies(bacteria: seq<Bacterium>, v: nat)
    ensures Filter(UpdateBacteria(bacteria), HasCount(v)) == Filter(Tally(ColoursOf(bacteria)), HasCount(v))
    ensures InFirstAppearanceOrder(ColoursOf(bacteria), Filter(UpdateBacteria(bacteria), HasCount(v)))
  {
    var cs := ColoursOf(bacteria);
    SortStable(Tally(cs), v);
    TallyFirstAppearance(cs);
    FilterFirstAppearance(cs, Tally(cs), HasCount(v));
  }
}

=== FILE: scene.dfy ===
/** The plane the organisms live in: two-dimensional vectors, the [-5, 5]
    domain with its axis-wise reflection rule, the co-location tolerance,
    food items, and the oracles that stand in for the floating-point
    geometry and for `Math.random()`. Floating-point numbers are modelled as
    exact `real`s. */
module Scene {

  /** An identifier drawn from `crypto.randomUUID()`. */
  type Id = string

  /** One value of `Math.random()`: uniformly drawn from [0, 1). */
  type Random = r: real | 0.0 <= r < 1.0

  /** A `THREE.Vector2` (or the x/y of a mesh position). */
  datatype Vec = Vec(x: real, y: real)

  /** `position + direction * speed`, the prospective position of one step. */
  function Step(position: Vec, direction: Vec, speed: real): Vec
  {
    Vec(position.x + direction.x * speed, position.y + direction.y * speed)
  }

  /** The domain is [-Bound, Bound] on each axis. */
  const Bound: real := 5.0

  /** A coordinate the boundary test rejects (`c > 5 || c < -5`). */
  predicate OutOfBounds(c: real)
  {
    c > Bound || c < -Bound
  }

  /** The direction after the boundary test: each component is negated when
      the prospective coordinate on its axis lies outside the domain. */
  function Reflect(direction: Vec, prospective: Vec): Vec
  {
    Vec(if OutOfBounds(prospective.x) then -direction.x else direction.x,
        if OutOfBounds(prospective.y) then -direction.y else direction.y)
  }

  /** After a step that leaves the domain on an axis, the reflected direction
      on that axis points back into the domain (for a non-negative speed and a
      start inside the domain). */
  lemma ReflectPointsInward(position: Vec, direction: Vec, speed: real)
    requires -Bound <= position.x <= Bound && -Bound <= position.y <= Bound
    requires speed >= 0.0
    ensures var p := Step(position, direction, speed);
            var r := Reflect(direction, p);
            && (p.x > Bound ==> r.x < 0.0) && (p.x < -Bound ==> r.x > 0.0)
            && (p.y > Bound ==> r.y < 0.0) && (p.y < -Bound ==> r.y > 0.0)
  {
    SignOfStep(position.x, direction.x, speed);
    SignOfStep(position.y, direction.y, speed);
  }

  /** If a step of a non-negative length moves a coordinate past the bound,
      the direction component has the sign of the overshoot. */
  lemma SignOfStep(c: real, d: real, speed: real)
    requires -Bound <= c <= Bound && speed >= 0.0
    ensures c + d * speed > Bound ==> d > 0.0
    ensures c + d * speed < -Bound ==> d < 0.0
  {
    if d <= 0.0 {
      assert d * speed <= 0.0;
    }
    if d >= 0.0 {
      assert d * speed >= 0.0;
    }
  }

  function Abs(r: real): real
  {
    if r < 0.0 then -r else r
  }

  /** The tolerance of `hasSameLocation`. */
  const Tolerance: real := 0.005

  /** `hasSameLocation`: both coordinate differences are strictly below the
      tolerance. */
  predicate SameLocation(a: Vec, b: Vec)
  {
    Abs(a.x - b.x) < Tolerance && Abs(a.y - b.y) < Tolerance
  }

  /** Co-location is reflexive and symmetric, and it is strictly tighter than
      the tolerance box: points that differ by the tolerance on an axis are
      not co-located. */
  lemma SameLocationShape(a: Vec, b: Vec)
    ensures SameLocation(a, a)
    ensures SameLocation(a, b) <==> SameLocation(b, a)
    ensures (Abs(a.x - b.x) >= Tolerance || Abs(a.y - b.y) >= Tolerance) ==> !SameLocation(a, b)
  {
  }

  /** A food item: an id and a position, nothing else. */
  datatype Food = Food(id: Id, position: Vec)

  /** The floating-point geometry the model does not compute: the sight test
      (a square root), the awareness test (an arc cosine of origin-relative
      position vectors) and `Vector2.normalize()`. Each takes the observer's
      position first. */
  datatype Senses = Senses(
    withinSight: (Vec, Vec, real) -> bool,
    withinAwareness: (Vec, Vec, real) -> bool,
    normalize: Vec -> Vec)

  /** `randomUnit()`: a draw mapped onto [-1, 1). */
  function RandomUnit(r: Random): (u: real)
    ensures -1.0 <= u < 1.0
  {
    r * 2.0 - 1.0
  }
}

=== FILE: seeding.dfy ===
/** Creating the initial population: random positions on a grid of tenths,
    random hexadecimal colours, the starting food, and the 10x10 grid that
    places at most one organism per unit cell. */
module Seeding {
  import opened Scene
  import opened Bacteria

  // ---------------------------------------------------------------- positions

  /** `(Math.floor(Math.random() * 90) - 45) / 10`: a whole number of tenths. */
  function RandomCoordinate(r: Random): (c: real)
    ensures (c * 10.0).Floor as real == c * 10.0
    ensures -45 <= (c * 10.0).Floor <= 44
    ensures -4.5 <= c <= 4.4
  {
    var k := (r * 90.0).Floor - 45;
    assert -45 <= k <= 44;
    k as real / 10.0
  }

  /** Every tenth in [-4.5, 4.4] is produced by some draw, so the range above
      is exact. */
  lemma RandomCoordinateOnto(k: int)
    requires -45 <= k <= 44
    ensures exists r: Random :: RandomCoordinate(r) == k as real / 10.0
  {
    var r: Random := (k + 45) as real / 90.0;
    assert (r * 90.0).Floor == k + 45 by {
      assert r * 90.0 == (k + 45) as real;
    }
    assert RandomCoordinate(r) == k as real / 10.0;
  }

  /** `getRandomPosition`: both coordinates drawn independently. */
  function GetRandomPosition(rx: Random, ry: Random): (p: Vec)
    ensures p.x == RandomCoordinate(rx) && p.y == RandomCoordinate(ry)
    ensures -4.5 <= p.x <= 4.4 && -4.5 <= p.y <= 4.4
  {
    Vec(RandomCoordinate(rx), RandomCoordinate(ry))
  }

  // ------------------------------------------------------------------ colours

  /** A character of the `letters` string "0123456789ABCDEF". */
  predicate IsHexDigit(c: char)
  {
    '0' <= c <= '9' || 'A' <= c <= 'F'
  }

  /** `letters[v]`. */
  function HexChar(v: nat): (c: char)
    requires v < 16
    ensures IsHexDigit(c)
  {
    if v < 10 then '0' + v as char else 'A' + (v - 10) as char
  }

  /** The index of a digit in `letters`. */
  function HexValue(c: char): (v: nat)
    requires IsHexDigit(c)
    ensures v < 16
  {
    if c <= '9' then (c - '0') as nat else (c - 'A') as nat + 10
  }

  /** `HexValue` inverts `HexChar` and the other way round. */
  lemma HexRoundTrip(v: nat, c: char)
    requires v < 16 && IsHexDigit(c)
    ensures HexValue(HexChar(v)) == v
    ensures HexChar(HexValue(c)) == c
  {
  }

  /** `letters[Math.floor(Math.random() * 16)]`. */
  function HexDigit(r: Random): (c: char)
    ensures IsHexDigit(c)
    ensures HexValue(c) == (r * 16.0).Floor
  {
    HexChar((r * 16.0).Floor)
  }

  /** A colour as `getRandomColor` builds it: '#' and six hexadecimal digits. */
  predicate IsHexColour(c: Colour)
  {
    |c| == 7 && c[0] == '#' && forall i :: 1 <= i < 7 ==> IsHexDigit(c[i])
  }

  /** `getRandomColor`, with `draw(i)` the i-th of its six draws. */
  function GetRandomColor(draw: nat -> Random): (c: Colour)
    ensures IsHexColour(c)
    ensures forall i :: 0 <= i < 6 ==> HexValue(c[i + 1]) == (draw(i) * 16.0).Floor
  {
    var c := [HexDigit(draw(0)), HexDigit(draw(1)), HexDigit(draw(2)),
              HexDigit(draw(3)), HexDigit(draw(4)), HexDigit(draw(5))];
    assert forall i :: 0 <= i < 6 ==> c[i] == HexDigit(draw(i));
    ['#'] + c
  }

  /** A draw that `HexDigit` maps to the given digit. */
  function DigitDraw(c: char): (r: Random)
    requires IsHexDigit(c)
    ensures HexDigit(r) == c
  {
    var v := HexValue(c);
    var r: Random := v as real / 16.0;
    assert r * 16.0 == v as real;
    r
  }

  /** Every '#'-prefixed six-digit colour is produced by some draws, so the
      generator's range is exactly the hexadecimal colours. */
  lemma GetRandomColorOnto(c: Colour)
    requires IsHexColour(c)
    ensures exists draw: nat -> Random :: GetRandomColor(draw) == c
  {
    var draw := (i: nat) => if i < 6 then DigitDraw(c[i + 1]) else 0.0;
    var g := GetRandomColor(draw);
    forall i | 1 <= i < 7
      ensures g[i] == c[i]
    {
      assert draw(i - 1) == DigitDraw(c[i]);
    }
    assert g == c;
  }

  // --------------------------------------------------------------------- food

  /** The random values spent on one placed entity: its id and its position. */
  datatype PlaceDraws = PlaceDraws(id: Id, x: Random, y: Random)

  /** `renderFood`: nothing before the scene exists, otherwise one food item
      per loop iteration at a random position. */
  function RenderFood(sceneReady: bool, startingFoodCount: int, draws: nat -> PlaceDraws): (r: seq<Food>)
    ensures !sceneReady ==> r == []
    ensures sceneReady ==> |r| == if startingFoodCount < 0 then 0 else startingFoodCount
    ensures forall i :: 0 <= i < |r| ==>
      r[i].id == draws(i).id && r[i].position == GetRandomPosition(draws(i).x, draws(i).y)
    ensures forall i :: 0 <= i < |r| ==>
      -4.5 <= r[i].position.x <= 4.4 && -4.5 <= r[i].position.y <= 4.4
  {
    if !sceneReady || startingFoodCount <= 0 then []
    else seq(startingFoodCount, i requires 0 <= i =>
               Food(draws(i).id, GetRandomPosition(draws(i).x, draws(i).y)))
  }

  // ------------------------------------------------------------ the bacteria

  /** The random values spent on one grid cell. */
  datatype SeedDraws = SeedDraws(
    place: Random,
    id: Id,
    offsetX: Random,
    offsetY: Random,
    colour: nat -> Random,
    facingX: Random,
    facingY: Random)

  /** The grid has 10 x 10 unit cells with lower corners -5..4. */
  const GridCells: nat := 100

  /** The n-th cell of the nested `i`, `j` loops (i outer). */
  function CellX(n: nat): int
  {
    n / 10 - 5
  }

  function CellY(n: nat): int
  {
    n % 10 - 5
  }

  /** A cell is skipped when its draw exceeds the 50% render chance. */
  const RenderChance: real := 0.5

  predicate Placed(d: SeedDraws)
  {
    !(d.place > RenderChance)
  }

  /** The organism seeded in cell n: the starting traits, a random colour and
      a position jittered by a hundredth of a random position. */
  function SeedAt(n: nat, traits: Traits, d: SeedDraws, senses: Senses): Bacterium
  {
    var jitter := GetRandomPosition(d.offsetX, d.offsetY);
    Newborn(d.id, traits, GetRandomColor(d.colour),
            Vec(jitter.x / 10.0 + CellX(n) as real, jitter.y / 10.0 + CellY(n) as real),
            RandomFacing(senses, d.facingX, d.facingY))
  }

  /** The cells among the first `k` that receive an organism, in loop order. */
  function PlacedCells(draws: nat -> SeedDraws, k: nat): (cells: seq<nat>)
    ensures |cells| <= k
    ensures forall m :: 0 <= m < |cells| ==> cells[m] < k && Placed(draws(cells[m]))
    ensures forall m, m' :: 0 <= m < m' < |cells| ==> cells[m] < cells[m']
    decreases k
  {
    if k == 0 then []
    else PlacedCells(draws, k - 1) + (if Placed(draws(k - 1)) then [k - 1] else [])
  }

  /** The organisms the first `k` cells produce, in loop order. */
  function SeedCells(traits: Traits, draws: nat -> SeedDraws, senses: Senses, k: nat): (r: seq<Bacterium>)
    ensures |r| == |PlacedCells(draws, k)|
    ensures forall m :: 0 <= m < |r| ==>
      && r[m].traits == traits && r[m].energy == InitialEnergy && !r[m].isPredator
      && IsHexColour(r[m].colour)
    decreases k
  {
    if k == 0 then []
    else SeedCells(traits, draws, senses, k - 1)
         + (if Placed(draws(k - 1)) then [SeedAt(k - 1, traits, draws(k - 1), senses)] else [])
  }

  /** Organism m of the seeding pass is the one seeded in the m-th placed cell. */
  lemma {:induction false} SeedCellsAt(traits: Traits, draws: nat -> SeedDraws, senses: Senses, k: nat, m: nat)
    requires m < |SeedCells(traits, draws, senses, k)|
    ensures var n := PlacedCells(draws, k)[m];
            SeedCells(traits, draws, senses, k)[m] == SeedAt(n, traits, draws(n), senses)
    decreases k
  {
    if m < |SeedCells(traits, draws, senses, k - 1)| {
      SeedCellsAt(traits, draws, senses, k - 1, m);
    }
  }

  /** `renderBacteria`: nothing before the scene exists, otherwise one pass over
      the 100 cells. */
  function RenderBacteria(sceneReady: bool, traits: Traits, draws: nat -> SeedDraws, senses: Senses): (r: seq<Bacterium>)
    ensures |r| <= GridCells
    ensures !sceneReady ==> r == []
    ensures forall m :: 0 <= m < |r| ==>
      && r[m].traits == traits && r[m].energy == InitialEnergy && !r[m].isPredator
      && IsHexColour(r[m].colour)
  {
    if sceneReady then SeedCells(traits, draws, senses, GridCells) else []
  }

  /** The position lies within [cell - 0.45, cell + 0.44] on each axis of cell n. */
  predicate InCell(p: Vec, n: nat)
  {
    && CellX(n) as real - 0.45 <= p.x <= CellX(n) as real + 0.44
    && CellY(n) as real - 0.45 <= p.y <= CellY(n) as real + 0.44
  }

  /** Every seeded organism lies in its own cell of the grid: organism m sits
      in the m-th placed cell, the cells strictly increase, and so no two
      seeded organisms share a position. */
  lemma SeededLayout(sceneReady: bool, traits: Traits, draws: nat -> SeedDraws, senses: Senses)
    requires sceneReady
    ensures var r := RenderBacteria(sceneReady, traits, draws, senses);
            var cells := PlacedCells(draws, GridCells);
            && |r| == |cells|
            && (forall m :: 0 <= m < |r| ==> cells[m] < GridCells && InCell(r[m].position, cells[m]))
            && (forall m, m' :: 0 <= m < m' < |r| ==> r[m].position != r[m'].position)
  {
    var r := RenderBacteria(sceneReady, traits, draws, senses);
    var cells := PlacedCells(draws, GridCells);
    forall m | 0 <= m < |r|
      ensures InCell(r[m].position, cells[m])
    {
      SeedCellsAt(traits, draws, senses, GridCells, m);
      SeedInCell(cells[m], traits, draws(cells[m]), senses);
    }
    forall m, m' | 0 <= m < m' < |r|
      ensures r[m].position != r[m'].position
    {
      DistinctCellsApart(r[m].position, r[m'].position, cells[m], cells[m']);
    }
  }

  /** The organism seeded in cell n lies within that cell. */
  lemma SeedInCell(n: nat, traits: Traits, d: SeedDraws, senses: Senses)
    ensures InCell(SeedAt(n, traits, d, senses).position, n)
  {
    var j := GetRandomPosition(d.offsetX, d.offsetY);
    assert SeedAt(n, traits, d, senses).position
        == Vec(j.x / 10.0 + CellX(n) as real, j.y / 10.0 + CellY(n) as real);
  }

  /** Seeding can start an organism outside the [-5, 5] domain: in the corner
      cell, offset draws of 0 put it at (-5.45, -5.45). */
  lemma SeedingCanStartOutside(traits: Traits, d: SeedDraws, senses: Senses)
    requires d.offsetX == 0.0 && d.offsetY == 0.0
    ensures SeedAt(0, traits, d, senses).position == Vec(-5.45, -5.45)
    ensures OutOfBounds(SeedAt(0, traits, d, senses).position.x)
    ensures OutOfBounds(SeedAt(0, traits, d, senses).position.y)
  {
    assert RandomCoordinate(0.0) == -4.5;
  }

  /** Points in two different cells differ. */
  lemma DistinctCellsApart(p: Vec, q: Vec, n: nat, n': nat)
    requires n < n' && InCell(p, n) && InCell(q, n')
    ensures p != q
  {
    if CellX(n) == CellX(n') {
      assert CellY(n) != CellY(n');
    }
  }
}

=== FILE: sequences.dfy ===
/** Small sequence vocabulary shared by the rest of the model: the
    `T | undefined` result of a lookup, first-match search, order-preserving
    filtering and counting. */
module Sequences {

  /** A value of type `T | undefined`, as the lookups of the simulation return it. */
  datatype Option<+T> = Undefined | Some(value: T)

  /** `x` is the first element of `s` that satisfies `p`. */
  ghost predicate FirstMatch<T>(s: seq<T>, p: T -> bool, x: T)
  {
    && p(x)
    && exists i :: 0 <= i < |s| && s[i] == x && forall j :: 0 <= j < i ==> !p(s[j])
  }

  /** The element a `for (const x of s) { if (p(x)) return x; } return undefined;`
      loop returns. */
  function FindFirst<T(==)>(s: seq<T>, p: T -> bool): (r: Option<T>)
    ensures r.Undefined? <==> forall i :: 0 <= i < |s| ==> !p(s[i])
    ensures r.Some? ==> FirstMatch(s, p, r.value)
    decreases |s|
  {
    if |s| == 0 then Undefined
    else if p(s[0]) then Some(s[0])
    else
      var r := FindFirst(s[1..], p);
      assert forall i :: 1 <= i < |s| ==> s[i] == s[1..][i - 1];
      if r.Some? then
        var i :| 0 <= i < |s[1..]| && s[1..][i] == r.value && forall j :: 0 <= j < i ==> !p(s[1..][j]);
        assert s[i + 1] == r.value && forall j :: 0 <= j < i + 1 ==> !p(s[j]);
        r
      else r
  }

  /** The elements of `s` that satisfy `p`, in their original order (the
      `if (keep) out.push(x)` loop over `s`). */
  function Filter<T(==)>(s: seq<T>, p: T -> bool): (r: seq<T>)
    ensures |r| <= |s|
    ensures forall i :: 0 <= i < |r| ==> p(r[i])
    decreases |s|
  {
    if |s| == 0 then []
    else Filter(s[..|s| - 1], p) + (if p(s[|s| - 1]) then [s[|s| - 1]] else [])
  }

  /** Filtering keeps exactly the elements of `s` that satisfy `p`. */
  lemma {:induction false} FilterMembers<T>(s: seq<T>, p: T -> bool)
    ensures forall i :: 0 <= i < |Filter(s, p)| ==> Filter(s, p)[i] in s
    ensures forall i :: 0 <= i < |s| && p(s[i]) ==> s[i] in Filter(s, p)
    decreases |s|
  {
    if |s| != 0 {
      var front := s[..|s| - 1];
      assert s == front + [s[|s| - 1]];
      FilterMembers(front, p);
    }
  }

  /** Filtering distributes over concatenation, so the relative order of the
      kept elements is exactly their order in the input. */
  lemma {:induction false} FilterAppend<T>(a: seq<T>, b: seq<T>, p: T -> bool)
    ensures Filter(a + b, p) == Filter(a, p) + Filter(b, p)
    decreases |b|
  {
    if |b| == 0 {
      assert a + b == a;
    } else {
      var b' := b[..|b| - 1];
      assert (a + b)[..|a + b| - 1] == a + b';
      assert (a + b)[|a + b| - 1] == b[|b| - 1];
      FilterAppend(a, b', p);
    }
  }

  /** A one-element sequence keeps its element or nothing. */
  lemma FilterSingle<T>(x: T, p: T -> bool)
    ensures Filter([x], p) == if p(x) then [x] else []
  {
    assert [x][..0] == [];
  }

  /** Searching the elements that pass `q` for one that satisfies `p` finds
      the first element of the whole sequence that passes both. */
  lemma {:induction false} FindFirstFilter<T>(s: seq<T>, q: T -> bool, p: T -> bool, both: T -> bool)
    requires forall x :: both(x) == (q(x) && p(x))
    ensures FindFirst(Filter(s, q), p) == FindFirst(s, both)
    decreases |s|
  {
    if |s| != 0 {
      var rest := Filter(s[1..], q);
      assert s == [s[0]] + s[1..];
      FilterAppend([s[0]], s[1..], q);
      FilterSingle(s[0], q);
      FindFirstFilter(s[1..], q, p, both);
      if q(s[0]) {
        assert ([s[0]] + rest)[0] == s[0];
        assert ([s[0]] + rest)[1..] == rest;
      } else {
        assert Filter(s, q) == rest;
        assert !both(s[0]);
      }
    }
  }

  /** The number of elements of `s` that satisfy `p`. */
  function Count<T>(s: seq<T>, p: T -> bool): (n: nat)
    ensures n <= |s|
    decreases |s|
  {
    if |s| == 0 then 0
    else Count(s[..|s| - 1], p) + (if p(s[|s| - 1]) then 1 else 0)
  }

  /** Filtering keeps exactly the counted elements. */
  lemma {:induction false} FilterLength<T>(s: seq<T>, p: T -> bool)
    ensures |Filter(s, p)| == Count(s, p)
    decreases |s|
  {
    if |s| != 0 {
      FilterLength(s[..|s| - 1], p);
    }
  }
}

=== FILE: simulation.dfy ===
/** The population scheduler: the configuration surface, `reset`, and one tick
    of `processBacteriaActions`. Within a tick every organism acts, in list
    order, against the one shared organism list and the one food list; because
    `act` updates each organism in place, an organism that has already acted
    is seen by later ones in its updated state (moved, with new energy), and
    one that chose to die is still present. Deaths, births and meals are
    applied only after the whole pass. */
module Simulation {
  import opened Sequences
  import opened Scene
  import opened Bacteria
  import opened Seeding

  // ----------------------------------------------------------- configuration

  datatype SimulationParameters = SimulationParameters(
    startingBacteriumTraits: Traits,
    startingFoodCount: int,
    foodReplenishmentRatePerSecond: real)

  /** The scheduler's state: the live lists and the configuration. */
  datatype World = World(
    bacteria: seq<Bacterium>,
    food: seq<Food>,
    startingTraits: Traits,
    startingFoodCount: int,
    foodReplenishmentRatePerSecond: real)

  /** `Math.PI / 4`, as the shortest decimal that rounds to the double it
      evaluates to. */
  const QuarterPi: real := 0.7853981633974483

  /** The configuration a new simulation starts with, and no organisms or food. */
  const Initial: World := World([], [], Traits(0.2, 0.01, 0.1, QuarterPi), 300, 2.0)

  function GetSimulationParameters(w: World): (p: SimulationParameters)
  {
    SimulationParameters(w.startingTraits, w.startingFoodCount, w.foodReplenishmentRatePerSecond)
  }

  function UpdateSimulationParameters(w: World, p: SimulationParameters): (w': World)
  {
    w.(startingTraits := p.startingBacteriumTraits,
       startingFoodCount := p.startingFoodCount,
       foodReplenishmentRatePerSecond := p.foodReplenishmentRatePerSecond)
  }

  /** Reading the parameters back returns what was written; writing back what
      was read changes nothing; the last write wins; and a write never touches
      the live organisms or food. */
  lemma ParametersRoundTrip(w: World, p: SimulationParameters, q: SimulationParameters)
    ensures GetSimulationParameters(UpdateSimulationParameters(w, p)) == p
    ensures UpdateSimulationParameters(w, GetSimulationParameters(w)) == w
    ensures UpdateSimulationParameters(UpdateSimulationParameters(w, p), q)
         == UpdateSimulationParameters(w, q)
    ensures UpdateSimulationParameters(w, p).bacteria == w.bacteria
    ensures UpdateSimulationParameters(w, p).food == w.food
  {
  }

  /** `reset`: reseed organisms and food from the configuration current at the
      time of the call. */
  function Reset(w: World, sceneReady: bool, seeds: nat -> SeedDraws, places: nat -> PlaceDraws, senses: Senses): (w': World)
    ensures GetSimulationParameters(w') == GetSimulationParameters(w)
    ensures |w'.bacteria| <= GridCells
    ensures forall i :: 0 <= i < |w'.bacteria| ==>
      w'.bacteria[i].traits == w.startingTraits && w'.bacteria[i].energy == InitialEnergy
    ensures sceneReady ==> |w'.food| == if w.startingFoodCount < 0 then 0 else w.startingFoodCount
    ensures !sceneReady ==> w'.bacteria == [] && w'.food == []
    ensures sceneReady ==>
      var cells := PlacedCells(seeds, GridCells);
      && |w'.bacteria| == |cells|
      && forall m :: 0 <= m < |w'.bacteria| ==> InCell(w'.bacteria[m].position, cells[m])
  {
    var bacteria := RenderBacteria(sceneReady, w.startingTraits, seeds, senses);
    assert sceneReady ==>
      var cells := PlacedCells(seeds, GridCells);
      && |bacteria| == |cells|
      && forall m :: 0 <= m < |bacteria| ==> InCell(bacteria[m].position, cells[m])
    by {
      if sceneReady {
        SeededLayout(sceneReady, w.startingTraits, seeds, senses);
      }
    }
    w.(bacteria := bacteria, food := RenderFood(sceneReady, w.startingFoodCount, places))
  }

  /** A new simulation holds no organisms or food and reports the default
      configuration. Its first reset on a ready scene lays out 300 food items,
      and every organism it seeds has size 0.2, speed 0.01, sight 0.1,
      awareness pi/4 and 1000 energy. */
  lemma FirstReset(seeds: nat -> SeedDraws, places: nat -> PlaceDraws, senses: Senses)
    ensures Initial.bacteria == [] && Initial.food == []
    ensures GetSimulationParameters(Initial)
         == SimulationParameters(Traits(0.2, 0.01, 0.1, QuarterPi), 300, 2.0)
    ensures var w := Reset(Initial, true, seeds, places, senses);
            && |w.food| == 300
            && |w.bacteria| <= GridCells
            && forall i :: 0 <= i < |w.bacteria| ==>
                 w.bacteria[i].traits == Traits(0.2, 0.01, 0.1, QuarterPi)
                 && w.bacteria[i].energy == 1000
  {
  }

  // -------------------------------------------------------------------- tick

  /** The organism list and the results after the first calls of the pass. */
  datatype PassState = PassState(bacteria: seq<Bacterium>, results: seq<ActionResult>)

  /** Two lists hold the same organisms in the same order, up to the state
      `act` changes (energy, position, facing, heading). */
  predicate SameRoster(a: seq<Bacterium>, b: seq<Bacterium>)
  {
    && |a| == |b|
    && forall i :: 0 <= i < |a| ==>
         && a[i].id == b[i].id && a[i].traits == b[i].traits
         && a[i].colour == b[i].colour && a[i].isPredator == b[i].isPredator
  }

  /** One organism's turn within the pass, given its index in the list (which
      selects its random draws), its current state and the shared list as it
      stands. */
  type Step = (nat, Bacterium, seq<Bacterium>) -> Turn

  /** The turn `processBacteriaActions` takes for each organism: `act` against
      the shared list and the unchanged food list. */
  function ActStep(food: seq<Food>, senses: Senses, draws: nat -> Draws): Step
  {
    (i: nat, self: Bacterium, list: seq<Bacterium>) => Act(self, list, food, senses, draws(i))
  }

  /** The first n iterations of the `for (const bacterium of bacteria)` loop:
      iteration i lets organism i take its turn against the shared list, in
      which the earlier iterations have already written back their
      organisms' state, and writes the organism back in place. */
  function Pass(bacteria: seq<Bacterium>, step: Step, n: nat): (p: PassState)
    requires n <= |bacteria|
    ensures |p.bacteria| == |bacteria| && |p.results| == n
    ensures forall j :: n <= j < |bacteria| ==> p.bacteria[j] == bacteria[j]
    decreases n
  {
    if n == 0 then PassState(bacteria, [])
    else
      var prev := Pass(bacteria, step, n - 1);
      var t := step(n - 1, prev.bacteria[n - 1], prev.bacteria);
      PassState(prev.bacteria[n - 1 := t.actor], prev.results + [t.result])
  }

  /** The pass of one tick. */
  function ActPass(bacteria: seq<Bacterium>, food: seq<Food>, senses: Senses, draws: nat -> Draws, n: nat): PassState
    requires n <= |bacteria|
  {
    Pass(bacteria, ActStep(food, senses, draws), n)
  }

  /** One more iteration extends the pass by the turn of organism n-1, taken
      from its pre-tick state. */
  lemma PassStep(bacteria: seq<Bacterium>, step: Step, n: nat)
    requires 0 < n <= |bacteria|
    ensures var prev := Pass(bacteria, step, n - 1);
            var t := step(n - 1, bacteria[n - 1], prev.bacteria);
            Pass(bacteria, step, n) == PassState(prev.bacteria[n - 1 := t.actor], prev.results + [t.result])
  {
    var prev := Pass(bacteria, step, n - 1);
    assert prev.bacteria[n - 1] == bacteria[n - 1];
  }

  /** The result of organism k is fixed once it has taken its turn. */
  lemma {:induction false} ResultsSettle(bacteria: seq<Bacterium>, step: Step, n: nat, k: nat)
    requires k < n <= |bacteria|
    ensures Pass(bacteria, step, n).results[k] == Pass(bacteria, step, k + 1).results[k]
    decreases n
  {
    if k < n - 1 {
      ResultsSettle(bacteria, step, n - 1, k);
      PassStep(bacteria, step, n);
    }
  }

  /** Every organism acts exactly once, from its own pre-tick state, against
      the list as the earlier iterations left it and against the unchanged
      food list. */
  lemma EachActsOnce(bacteria: seq<Bacterium>, food: seq<Food>, senses: Senses, draws: nat -> Draws, n: nat, k: nat)
    requires k < n <= |bacteria|
    ensures ActPass(bacteria, food, senses, draws, n).results[k]
            == Act(bacteria[k], ActPass(bacteria, food, senses, draws, k).bacteria, food, senses, draws(k)).result
  {
    var step := ActStep(food, senses, draws);
    ResultsSettle(bacteria, step, n, k);
    PassStep(bacteria, step, k + 1);
  }

  /** The turn only changes an organism's energy, position, facing and heading. */
  ghost predicate KeepsIdentity(step: Step)
  {
    forall i: nat, self: Bacterium, list: seq<Bacterium> ::
      var a := step(i, self, list).actor;
      a.id == self.id && a.traits == self.traits && a.colour == self.colour && a.isPredator == self.isPredator
  }

  /** A pass whose turns keep identities keeps the roster. */
  lemma {:induction false} PassKeepsRoster(bacteria: seq<Bacterium>, step: Step, n: nat)
    requires n <= |bacteria| && KeepsIdentity(step)
    ensures SameRoster(Pass(bacteria, step, n).bacteria, bacteria)
    decreases n
  {
    if n > 0 {
      PassKeepsRoster(bacteria, step, n - 1);
      PassStep(bacteria, step, n);
    }
  }

  /** The list still holds every organism in its original order after any
      number of iterations of the tick's pass, including those that already
      chose to die. */
  lemma ActPassKeepsRoster(bacteria: seq<Bacterium>, food: seq<Food>, senses: Senses, draws: nat -> Draws, n: nat)
    requires n <= |bacteria|
    ensures SameRoster(ActPass(bacteria, food, senses, draws, n).bacteria, bacteria)
  {
    var step := ActStep(food, senses, draws);
    forall i: nat, self: Bacterium, list: seq<Bacterium>
      ensures var a := step(i, self, list).actor;
              a.id == self.id && a.traits == self.traits && a.colour == self.colour && a.isPredator == self.isPredator
    {
      var t := Act(self, list, food, senses, draws(i));
      assert step(i, self, list) == t;
    }
    PassKeepsRoster(bacteria, step, n);
  }

  /** The ids of the organisms whose result is Die, in pass order. */
  function DiedIds(bacteria: seq<Bacterium>, results: seq<ActionResult>): seq<Id>
    requires |results| <= |bacteria|
    decreases |results|
  {
    if |results| == 0 then []
    else
      var k := |results| - 1;
      DiedIds(bacteria, results[..k]) + (if results[k].Die? then [bacteria[k].id] else [])
  }

  /** The reproduced children, in the order their parents acted. */
  function Children(results: seq<ActionResult>): (r: seq<Bacterium>)
    ensures |r| == Count(results, (a: ActionResult) => a.Reproduce?)
    decreases |results|
  {
    if |results| == 0 then []
    else
      var k := |results| - 1;
      Children(results[..k]) + (if results[k].Reproduce? then [results[k].newBacterium] else [])
  }

  /** The ids of the eaten food items, in pass order. */
  function EatenIds(results: seq<ActionResult>): seq<Id>
    decreases |results|
  {
    if |results| == 0 then []
    else
      var k := |results| - 1;
      EatenIds(results[..k]) + (if results[k].EatFood? then [results[k].eatenFood.id] else [])
  }

  /** An id is listed as died exactly when the organism at some index of
      the pass had result Die. */
  lemma {:induction false} DiedIdsMembers(bacteria: seq<Bacterium>, results: seq<ActionResult>, x: Id)
    requires |results| <= |bacteria|
    ensures x in DiedIds(bacteria, results) <==>
            exists k :: 0 <= k < |results| && results[k].Die? && bacteria[k].id == x
    decreases |results|
  {
    if |results| != 0 {
      var k := |results| - 1;
      DiedIdsMembers(bacteria, results[..k], x);
      assert forall j :: 0 <= j < k ==> results[..k][j] == results[j];
    }
  }

  /** A food id is listed as eaten exactly when some result ate that item. */
  lemma {:induction false} EatenIdsMembers(results: seq<ActionResult>, x: Id)
    ensures x in EatenIds(results) <==>
            exists k :: 0 <= k < |results| && results[k].EatFood? && results[k].eatenFood.id == x
    decreases |results|
  {
    if |results| != 0 {
      var k := |results| - 1;
      EatenIdsMembers(results[..k], x);
      assert forall j :: 0 <= j < k ==> results[..k][j] == results[j];
    }
  }

  /** Appending one result extends each collected list by at most one item. */
  lemma CollectStep(bacteria: seq<Bacterium>, results: seq<ActionResult>, r: ActionResult)
    requires |results| < |bacteria|
    ensures DiedIds(bacteria, results + [r])
            == DiedIds(bacteria, results) + (if r.Die? then [bacteria[|results|].id] else [])
    ensures Children(results + [r]) == Children(results) + (if r.Reproduce? then [r.newBacterium] else [])
    ensures EatenIds(results + [r]) == EatenIds(results) + (if r.EatFood? then [r.eatenFood.id] else [])
  {
    assert (results + [r])[..|results|] == results;
  }

  /** The next snapshot. */
  datatype Snapshot = Snapshot(bacteria: seq<Bacterium>, food: seq<Food>)

  /** Keeps an organism whose id is not among the died ids. */
  function Alive(died: seq<Id>): Bacterium -> bool
  {
    (b: Bacterium) => b.id !in died
  }

  /** Keeps a food item whose id is not among the eaten ids. */
  function Uneaten(eaten: seq<Id>): Food -> bool
  {
    (f: Food) => f.id !in eaten
  }

  /** The declarative tick: after the whole pass, drop the organisms whose ids
      died, append the children, and drop the food whose ids were eaten. */
  function Tick(bacteria: seq<Bacterium>, food: seq<Food>, senses: Senses, draws: nat -> Draws): Snapshot
  {
    var p := ActPass(bacteria, food, senses, draws, |bacteria|);
    var died := DiedIds(bacteria, p.results);
    var eaten := EatenIds(p.results);
    Snapshot(Filter(p.bacteria, Alive(died)) + Children(p.results), Filter(food, Uneaten(eaten)))
  }

  /** The first loop of `processBacteriaActions`: every organism acts and the
      ids to remove, the children to add and the eaten food ids are collected. */
  method ActAll(bacteria: seq<Bacterium>, food: seq<Food>, senses: Senses, draws: nat -> Draws)
    returns (current: seq<Bacterium>, bacteriaIdsToRemove: seq<Id>, bacteriaToAdd: seq<Bacterium>, foodIdsToRemove: seq<Id>)
    ensures var p := ActPass(bacteria, food, senses, draws, |bacteria|);
            && current == p.bacteria
            && bacteriaIdsToRemove == DiedIds(bacteria, p.results)
            && bacteriaToAdd == Children(p.results)
            && foodIdsToRemove == EatenIds(p.results)
  {
    current := bacteria;
    ghost var results: seq<ActionResult> := [];
    bacteriaIdsToRemove, bacteriaToAdd, foodIdsToRemove := [], [], [];
    var i := 0;
    while i < |bacteria|
      invariant i <= |bacteria|
      invariant ActPass(bacteria, food, senses, draws, i) == PassState(current, results)
      invariant bacteriaIdsToRemove == DiedIds(bacteria, results)
      invariant bacteriaToAdd == Children(results)
      invariant foodIdsToRemove == EatenIds(results)
    {
      var bacterium := current[i];
      var t := Act(bacterium, current, food, senses, draws(i));
      PassStep(bacteria, ActStep(food, senses, draws), i + 1);
      CollectStep(bacteria, results, t.result);
      assert bacterium.id == bacteria[i].id;
      current := current[i := t.actor];
      results := results + [t.result];
      match t.result {
        case Die =>
          bacteriaIdsToRemove := bacteriaIdsToRemove + [bacterium.id];
        case Reproduce(child) =>
          bacteriaToAdd := bacteriaToAdd + [child];
        case EatFood(item) =>
          foodIdsToRemove := foodIdsToRemove + [item.id];
        case None =>
      }
      i := i + 1;
    }
  }

  /** The second loop: keep the organisms whose id is not listed, in order. */
  method KeepLiving(bacteria: seq<Bacterium>, bacteriaIdsToRemove: seq<Id>) returns (kept: seq<Bacterium>)
    ensures kept == Filter(bacteria, Alive(bacteriaIdsToRemove))
  {
    kept := [];
    var j := 0;
    while j < |bacteria|
      invariant j <= |bacteria|
      invariant kept == Filter(bacteria[..j], Alive(bacteriaIdsToRemove))
    {
      assert bacteria[..j + 1][..j] == bacteria[..j];
      if bacteria[j].id !in bacteriaIdsToRemove {
        kept := kept + [bacteria[j]];
      }
      j := j + 1;
    }
    assert bacteria[..|bacteria|] == bacteria;
  }

  /** The third loop: keep the food whose id is not listed, in order. */
  method KeepUneaten(food: seq<Food>, foodIdsToRemove: seq<Id>) returns (kept: seq<Food>)
    ensures kept == Filter(food, Uneaten(foodIdsToRemove))
  {
    kept := [];
    var j := 0;
    while j < |food|
      invariant j <= |food|
      invariant kept == Filter(food[..j], Uneaten(foodIdsToRemove))
    {
      assert food[..j + 1][..j] == food[..j];
      if food[j].id !in foodIdsToRemove {
        kept := kept + [food[j]];
      }
      j := j + 1;
    }
    assert food[..|food|] == food;
  }

  /** `processBacteriaActions`, loop for loop. */
  method ProcessBacteriaActions(bacteria: seq<Bacterium>, food: seq<Food>, senses: Senses, draws: nat -> Draws)
    returns (next: Snapshot)
    ensures next == Tick(bacteria, food, senses, draws)
  {
    var current, bacteriaIdsToRemove, bacteriaToAdd, foodIdsToRemove := ActAll(bacteria, food, senses, draws);
    var newBacteriaList := KeepLiving(current, bacteriaIdsToRemove);
    var newFoodList := KeepUneaten(food, foodIdsToRemove);
    next := Snapshot(newBacteriaList + bacteriaToAdd, newFoodList);
  }

  // -------------------------------------------------------- tick properties

  /** The tick never adds food: the next food list is the old one without the
      eaten ids, in the same order. */
  lemma TickFood(bacteria: seq<Bacterium>, food: seq<Food>, senses: Senses, draws: nat -> Draws)
    ensures var p := ActPass(bacteria, food, senses, draws, |bacteria|);
            var next := Tick(bacteria, food, senses, draws).food;
            && |next| <= |food|
            && (forall i :: 0 <= i < |next| ==> next[i] in food && next[i].id !in EatenIds(p.results))
            && (forall i :: 0 <= i < |food| && food[i].id !in EatenIds(p.results) ==> food[i] in next)
  {
    var p := ActPass(bacteria, food, senses, draws, |bacteria|);
    FilterMembers(food, Uneaten(EatenIds(p.results)));
  }

  /** No organism whose id died this tick survives it. */
  lemma TickRemovesTheDead(bacteria: seq<Bacterium>, food: seq<Food>, senses: Senses, draws: nat -> Draws)
    ensures var p := ActPass(bacteria, food, senses, draws, |bacteria|);
            var survivors := |Tick(bacteria, food, senses, draws).bacteria| - |Children(p.results)|;
            && 0 <= survivors
            && forall i :: 0 <= i < survivors ==>
                 Tick(bacteria, food, senses, draws).bacteria[i].id !in DiedIds(bacteria, p.results)
  {
  }

  /** All ids of the list are different. */
  predicate DistinctIds(bacteria: seq<Bacterium>)
  {
    forall i, j :: 0 <= i < j < |bacteria| ==> bacteria[i].id != bacteria[j].id
  }

  /** With distinct ids, the population changes by births minus deaths. */
  lemma TickPopulation(bacteria: seq<Bacterium>, food: seq<Food>, senses: Senses, draws: nat -> Draws)
    requires DistinctIds(bacteria)
    ensures var p := ActPass(bacteria, food, senses, draws, |bacteria|);
            |Tick(bacteria, food, senses, draws).bacteria|
            == |bacteria| - Count(p.results, (a: ActionResult) => a.Die?)
                          + Count(p.results, (a: ActionResult) => a.Reproduce?)
  {
    var p := ActPass(bacteria, food, senses, draws, |bacteria|);
    var died := DiedIds(bacteria, p.results);
    ActPassKeepsRoster(bacteria, food, senses, draws, |bacteria|);
    forall k | 0 <= k < |bacteria|
      ensures p.bacteria[k].id in died <==> p.results[k].Die?
    {
      DiedIdsMembers(bacteria, p.results, p.bacteria[k].id);
      if p.bacteria[k].id in died {
        var k' :| 0 <= k' < |p.results| && p.results[k'].Die? && bacteria[k'].id == p.bacteria[k].id;
        assert k' == k;
      }
    }
    SurvivorCount(p.bacteria, p.results, died);
  }

  /** Filtering out the died ids keeps exactly the organisms whose own result
      is not Die. */
  lemma {:induction false} SurvivorCount(s: seq<Bacterium>, results: seq<ActionResult>, died: seq<Id>)
    requires |s| == |results|
    requires forall k :: 0 <= k < |s| ==> (s[k].id in died <==> results[k].Die?)
    ensures |Filter(s, Alive(died))| == |s| - Count(results, (a: ActionResult) => a.Die?)
    decreases |s|
  {
    if |s| != 0 {
      var k := |s| - 1;
      SurvivorCount(s[..k], results[..k], died);
    }
  }

  /** An empty world stays empty. */
  lemma EmptyTick(senses: Senses, draws: nat -> Draws)
    ensures Tick([], [], senses, draws) == Snapshot([], [])
  {
  }
}
